=== FILE: README.md ===
# Survival, movement and progression core of an amphibian exploration game

This project models the game logic of a browser game. A blue amphibian character swims around an island, collects gold nuggets and must survive. Breath runs out under water, poison hurts, resting on the island heals, and death is final until a full reset. Across levels, a progression ledger records completed levels, decides which levels are unlocked and counts nuggets toward a 30-nugget goal.

The model is written in Dafny as pure functions over immutable records. Timers become explicit steps:

- `Health.Tick` is one second of the health system's three intervals.
- `CharacterSystem.CompleteTransit` is the end of a move.
- The 200 ms collection poll is a call to the collection check.

Modules, one per file:

| module | file | models |
|---|---|---|
| `Util` | util.dfy | `Option` (JavaScript `null`), `Min`, `Max` |
| `Geometry` | geometry.dfy | the island disc (radius 25), the shore disc (radius 30), clamping to [5, 95], squared-distance comparisons |
| `Health` | health.dfy | `CharacterHealthSystem`: every operation, the three interval bodies, `Tick`, and a command type with `Run` |
| `HealthScenarios` | health_scenarios.dfy | tick cases, the numeric scenarios, death and reset |
| `IntervalLeak` | interval_leak.dfy | the live interval sets behind the health system, and the reset finding below |
| `Collection` | collection.dfy | one-shot nugget collection, the running count and the all-collected notification; shared by both files below |
| `CharacterSystem` | character_system.dfy | `initCharacterSystem`: `moveCharacter`, the transit timeout, `checkNuggetCollection`, `collectNugget` |
| `GameLevel` | game_level.dfy | `initGameLevel`: the session that composes health, collection, underwater classification, rest and `resetGame` |
| `LevelIds` | level_ids.dfy | level identifiers `niveau<N>-<step>` and the two regular expressions that parse them |
| `Progression`, `ProgressionFacts` | progression.dfy, progression_facts.dfy | `GameProgression`: completion, unlocking, the step order, the final objective, reset |

Places where the code behaves in a way a reader might not expect; the model follows the code:

- **Breath damage timing.** When breath runs out, the 5 damage lands on the same tick that brings breath to 0, not on the tick after. After 420 seconds under water from full breath, health is 95 (`HealthScenarios.BreathRunsOutOnSecond420`).
- **`observeSky` does not reclassify.** It moves the character to the centre but does not update the underwater status. A character that was under water stays under water on the island (`GameLevel.SkyLeavesCharacterSubmerged`).
- **`resetGame` always dives.** It declares the character under water whatever the start position.
- **Collection guards differ by file.** In `initCharacterSystem`, collection is suppressed only while a move is in transit. In `initGameLevel`, it is suppressed only while resting or dead. Tapping or clicking a nugget collects it with no guard at all.
- **The count is not monotone across resets.** The collected count only grows between resets, and `resetGame` sets it back to 0.
- **Victory is not terminal.** Nothing is blocked after victory.
- **The previous-step rule rarely decides.** The comment at game-progression.js:97-98 says `niveau1-mare` opens once `niveau6-ruisseau` is complete. But line 79 opens every identifier containing `niveau1` first (`ProgressionFacts.LeadingOneIsOpen`). So for the game's own identifiers, levels 1 to 6, the previous-step rule never decides anything. It is reached only by numbers written another way, such as level 0 or `niveau01-mare`, which is why `ProgressionFacts.UnlockFollowsPreviousStep` is stated for level 0.

## Model

| member | source | states |
|---|---|---|
| Health.New | character-health-system.js:22-29 | a new system has full health, full breath and every flag false, and satisfies the bounds invariant |
| Health.Reset | character-health-system.js:206-212 | reset yields the same pristine state as a new system, from any state, dead or not |
| Health.Die | character-health-system.js:188-201 | the first death sets `dead` and clears resting and underwater; dying again changes nothing; health, breath and poison are kept |
| Health.TakeDamage | character-health-system.js:115-127 | no-op when dead; health becomes max(0, health - amount); death exactly when health reaches 0 with deathOnHealthZero; bounds kept for amount >= 0 |
| Health.RestoreHealth | character-health-system.js:132-141 | no-op when dead; health becomes min(maxHealth, health + amount); never lowers health and keeps the bounds for amount >= 0 |
| Health.SetUnderwater | character-health-system.js:102-110 | no-op when dead; diving with breath <= 0 marks the character underwater and then deals 10 damage through `takeDamage`, so it dies exactly when health reaches 0 and stays marked underwater only if alive, with every other field, resting included, kept; otherwise only the flag changes; bounds kept |
| Health.UseAntidote | character-health-system.js:146-156 | succeeds exactly when alive; success clears poison and restores the antidote amount, capped; failure changes nothing |
| Health.SetPoisoned | character-health-system.js:161-166 | no-op when dead; otherwise only the poison flag changes |
| Health.StartRest | character-health-system.js:171-176 | no-op when dead; otherwise only the resting flag is set |
| Health.StopRest | character-health-system.js:181-183 | unguarded: clears resting and nothing else |
| Health.ApneaTick | character-health-system.js:55-74 | submerged, alive and not resting: breath drops by 1000 with no other change while more than 1000 remains; otherwise it becomes 0 and, when breath expiry is lethal, the same tick deals 5 damage; submerged and dead or resting: no change; surfaced: only breath changes, refilling by 2000 up to the maximum, and a full breath stays put; bounds and the poison flag are kept |
| Health.PoisonTick | character-health-system.js:77-81 | the poison interval body keeps the bounds |
| Health.RestTick | character-health-system.js:84-96 | the rest interval body keeps the bounds and never changes the poison or death flags |
| Health.Tick | character-health-system.js:53-97 | one second (apnea, then poison, then rest) keeps the bounds; a dead system does not change; a tick kills only by bringing health to 0 |
| Health.Run | character-health-system.js:102-201 | any sequence of calls and seconds keeps the bounds; from a dead state, no sequence without reset changes any field |
| HealthScenarios.ResetIsNew | character-health-system.js:206-212 | reset after anything, death included, equals a new system and is valid |
| HealthScenarios.DieIdempotent | character-health-system.js:188-189 | dying twice is dying once |
| HealthScenarios.DeadIgnoresCalls | character-health-system.js:102-193 | on a dead system every operation and the tick are no-ops, and the antidote returns false |
| HealthScenarios.DrainWhileSubmerged | character-health-system.js:55-65 | k seconds submerged, alive, not resting and unpoisoned lower breath by exactly 1000k and cost no health while breath stays positive |
| HealthScenarios.BreathRunsOutOnSecond420 | character-health-system.js:55-65 | diving from 420000: after 419 seconds breath is 1000 at full health; second 420 brings it to 0 and costs 5 health in that same second |
| HealthScenarios.ExhaustedDiveCostsTen | character-health-system.js:106-109 | with no breath left, diving lowers health from 100 to 90 before any tick |
| HealthScenarios.ApneaTickCases | character-health-system.js:55-74 | over a whole unpoisoned second: surfaced, breath becomes min(max, breath + 2000); submerged with more than 1000 left, breath drops by 1000 and nothing else changes; submerged with at most 1000 left, breath becomes 0 and, when expiry is lethal, 5 damage is taken in that second; submerged and resting, the apnea body changes nothing |
| HealthScenarios.PoisonDrains | character-health-system.js:77-81 | k poisoned seconds on a surfaced, non-resting live character cost exactly poisoningDamage * k while health stays positive |
| HealthScenarios.ThreePoisonedSeconds | character-health-system.js:77-81 | three poisoned seconds on the defaults take health from 100 to 94 |
| HealthScenarios.RestTickHeals | character-health-system.js:84-96 | a resting second heals by the rest amount (capped), ignores poison, and refills breath by 3000 under water or by 5000 (surface refill plus rest refill) out of it; nothing else changes |
| HealthScenarios.AntidoteFromForty | character-health-system.js:146-156 | an antidote at 40 health while poisoned cures the poison, gives 90 health and returns true |
| IntervalLeak.ResetAsWritten | character-health-system.js:206-215 | reset as written: a pristine state plus one more live set of intervals |
| IntervalLeak.ResetWhileAliveDoublesPoison | character-health-system.js:206-215 | after a reset while alive, two interval sets run, and one poisoned second costs 4 health instead of 2 |
| IntervalLeak.LeakedIntervalRefillsDeadBreath | character-health-system.js:195-198 | after a reset while alive, death clears only the newest set; the older apnea interval then refills a dead character's breath from 418000 to 420000 |
| IntervalLeak.StepCorrected | character-health-system.js:188-215 | with a reset that clears the live intervals first, one set runs while alive and none once dead, and every call evolves exactly as `Health.Step` |
| IntervalLeak.RunCorrected | character-health-system.js:53-97 | over any sequence of calls the corrected clock keeps one set per life and tracks `Health.Run` exactly |
| Geometry.Clamp | character-system.js:169-170 | the clamped coordinate lies in [5, 95], equals the input inside it, and is the nearer bound outside it |
| Geometry.ClampKeepsOffIsland | character-system.js:157-170 | clamping a target outside the island disc of radius 25 never yields a point inside it |
| Collection.Collect | character-system.js:94-120 | an already-collected nugget is refused with nothing changed; otherwise it is marked, the count rises by exactly one, the notification carries the new count, and all-collected fires exactly when the new count equals the total; victory fires with it when enabled, and never otherwise |
| Collection.Visit | character-system.js:132-146 | one forEach iteration adds the nugget to the collected set exactly when it is within reach, keeps the count consistent, and fires all-collected exactly when it brings the count to the total |
| Collection.Sweep | character-system.js:132-147 | after the forEach, the collected set is the old set plus exactly the nuggets strictly within reach; the count stays equal to the set's size; all-collected fires once if the count went from below the total to at least the total, and never otherwise; victory, when enabled, fires exactly as often |
| CharacterSystem.Start | character-system.js:78-80 | the closure starts not moving, with nothing collected and a consistent count |
| CharacterSystem.MoveCharacter | character-system.js:153-184 | accepted exactly when not in transit and not (water-only and target within 25 of the centre); refusal changes nothing; acceptance commits the clamped target and starts a transit; a water-only move never lands on the island |
| CharacterSystem.CollectNugget | character-system.js:94-120 | one-shot per nugget against the total of nuggets on the page; a repeat returns false with nothing changed; all-collected fires exactly on the collection that reaches the page's total; no victory notification |
| CharacterSystem.CheckNuggetCollection | character-system.js:125-148 | no-op while in transit; otherwise exactly the uncollected nuggets within reach are collected, and all-collected fires exactly when this check brings the count to the page's total |
| CharacterSystem.CompleteTransit | character-system.js:177-181 | the timeout ends the transit, keeps the position, then collects every nugget within reach |
| CharacterSystem.Step | character-system.js:177-198 | each click, arrival, poll or direct collection keeps the count consistent, never un-collects or lowers the count, and fires all-collected exactly when it brings the count to the total |
| CharacterSystem.Run | character-system.js:94-120 | over any sequence of inputs the count equals the number of collected nuggets and the collected set only grows; all-collected fires exactly once if the count reaches the number of nuggets on the page and never otherwise; victory never fires |
| GameLevel.UpdateUnderwaterStatus | init-game-level.js:248-270 | within 30 of the centre the health system is told "not underwater", beyond 30 "underwater"; a live result is underwater exactly when beyond 30 |
| GameLevel.Init | init-game-level.js:371-374 | a level starts with a new health system at the start position, nothing collected, not resting, no close listener, classified by distance |
| GameLevel.CollectNugget | init-game-level.js:171-219 | one-shot per nugget; on the collection whose count equals the configured total the notifications are exactly the collection, then all-collected, then victory; otherwise all-collected and victory do not fire |
| GameLevel.CheckNuggetCollection | init-game-level.js:222-245 | no-op while resting or dead; otherwise exactly the uncollected nuggets within reach are collected, and all-collected and victory each fire exactly when this poll brings the count to the configured total |
| GameLevel.ObserveSky | init-game-level.js:273-317 | no-op when resting or dead; otherwise sets both resting flags, moves to (50, 50) without changing the underwater status, and registers one more pair of close listeners |
| GameLevel.EndRest | init-game-level.js:301-305 | ending a rest clears the session's and the health system's resting flags and nothing else |
| GameLevel.RestKey | init-game-level.js:332-350 | the start-up key listener: within 30, not resting and alive, it is exactly observing the sky (a rest at the centre, nothing else changed); else, if resting, it ends the rest; else nothing changes |
| GameLevel.KeyPress | init-game-level.js:310-350 | a whole key press: with no close listener it is the start-up listener alone; with one or more registered before the press, the press always ends resting; afterwards only a listener this press registered remains; position and tally are the start-up listener's, and health changes in its resting flag only |
| GameLevel.ModalClick | init-game-level.js:300-317 | a click on the sky modal runs every registered close: with none it changes nothing, otherwise it ends the rest and removes every close listener |
| GameLevel.KeyTogglesRest | init-game-level.js:310-350 | while close listeners match the rest, the key starts a rest near the centre, ends one in progress, and keeps the listeners matching |
| GameLevel.ResetGame | init-game-level.js:132-168 | new life, nothing collected, count 0, back at the start position, not resting, then declared underwater whatever the start; the close listeners of an interrupted rest stay registered |
| GameLevel.SetPosition | init-game-level.js:395-401 | stores the position as given, with no clamp or island check, then reclassifies |
| GameLevel.Step | init-game-level.js:352-381 | taps on a nugget of the page collect without the resting or death guard, and a tap on anything else changes nothing; every input keeps every collected nugget on the page; every input keeps the session valid, never un-collects and fires all-collected and victory exactly when it brings the count to the configured total, and every input but a reset keeps the close listeners matching the rest; a reset empties the tally and emits nothing |
| GameLevel.Run | init-game-level.js:204-210 | any run keeps health in bounds, the count equal to the collected set's size and `moving` false, and emits victory exactly as often as all-collected; between resets the pair fires exactly once if the count reaches the configured total and never otherwise, and close listeners keep matching the rest; collected nuggets stay on the page |
| GameLevel.StaleCloserCancelsKeyRest | init-game-level.js:132-168 | after a reset that interrupts a rest, back at the centre, the start-up key listener starts a rest but the left-over close listener ends it in the same press, and again on the next press |
| GameLevel.ResetGameCorrected | init-game-level.js:132-168 | the intended reset is the reset as written with the close listeners removed, and leaves the listeners matching the rest |
| GameLevel.StepCorrected | init-game-level.js:132-168 | with the intended reset, every input, resets included, keeps the close listeners matching the rest and the session valid; other inputs are unchanged |
| GameLevel.RunCorrected | init-game-level.js:132-168 | with the intended reset, close listeners match the rest over any run, so the key keeps toggling resting; without resets it equals `GameLevel.Run`, session and events alike |
| GameLevel.SkyLeavesCharacterSubmerged | init-game-level.js:273-283 | observing the sky from open water leaves the character underwater at the centre, so breath drains there once the rest ends |
| LevelIds.DigitRun | game-progression.js:112 | the greedy `\d+` run: digits only, and followed by a non-digit or the end |
| LevelIds.NatToString | game-progression.js:93 | the decimal rendering is non-empty digits with no leading zero, and parses back to the number |
| LevelIds.Leftmost | game-progression.js:112 | the match position found is the leftmost one; none means no position matches |
| LevelIds.ExtractLevelNumber | game-progression.js:111-114 | a number is found exactly when some `niveau` is directly followed by a digit, and it is the value of the whole digit run after the leftmost such `niveau` |
| LevelIds.ExtractStepName | game-progression.js:119-122 | a step is found exactly when some `niveau<digits>-` is followed by a character on the same line; the step is the rest of the line after the dash of the leftmost such match, non-empty |
| LevelIds.ParseLevelId | game-progression.js:111-122 | `niveau<n>-<step>` parses back to n and to the step, for any non-empty one-line step |
| LevelIds.ParseZeroPadded | game-progression.js:111-122 | `niveau007-mare` parses to level 7 and step `mare` |
| LevelIds.ParseLeftmostMatch | game-progression.js:111-122 | `xniveau3-a-niveau4-b` parses to level 3 and step `a-niveau4-b`: only the leftmost match counts |
| Progression.Initial | game-progression.js:36-40 | the default progression has total 0, no completed level and no current level |
| Progression.IsLevelCompleted | game-progression.js:70-72 | a level never recorded is not completed; a recorded one is completed exactly when its entry is true; `CompleteLevel` makes it true and `ProgressionFacts.Replay` keeps it so until a reset |
| Progression.IsFinalObjectiveReached | game-progression.js:143-145 | reached exactly when at least 30 nuggets are counted; `ProgressionFacts.FiveNewLevelsReachGoal` and `ProgressionFacts.RepeatedLevelCountsOnce` show which completions get there |
| Progression.IsLevelUnlocked | game-progression.js:77-106 | any identifier containing `niveau1` is open; one without it and without a parsable level number or step is locked; an open level without `niveau1` requires some completed level; `ProgressionFacts.UnlockFollowsPreviousLevel` and `ProgressionFacts.UnlockFollowsPreviousStep` give the exact rule |
| Progression.CompleteLevel | game-progression.js:57-65 | after the call the level is completed; the first completion adds the nuggets to the total; a repeated completion changes nothing |
| Progression.SetCurrentLevel | game-progression.js:157-160 | records the current level and changes nothing else |
| Progression.Reset | game-progression.js:165-171 | total 0, no completed level, no current level |
| Progression.IndexOf | game-progression.js:129 | the first index holding the step, or none if absent |
| Progression.PreviousStep | game-progression.js:127-131 | a predecessor exists exactly for steps listed after the first, and it is the step listed just before |
| ProgressionFacts.CompleteLevelIdempotent | game-progression.js:57-65 | completing a level twice equals completing it once |
| ProgressionFacts.Replay | game-progression.js:57-65 | with non-negative counts and no reset, the total never drops, completed levels stay completed, and a reached 30-nugget goal stays reached |
| ProgressionFacts.RepeatedLevelCountsOnce | game-progression.js:143-145 | completing one level five times with 6 nuggets gives total 6, short of the goal |
| ProgressionFacts.NewLevelsAddUp | game-progression.js:57-65 | completing pairwise distinct levels that are not yet completed adds each one's nuggets to the total |
| ProgressionFacts.FiveNewLevelsReachGoal | game-progression.js:143-145 | five different levels of 6 nuggets each, from a fresh ledger, reach the 30-nugget goal |
| ProgressionFacts.NiveauTenIsOpen | game-progression.js:79-81 | `niveau10-mare` is unlocked on an empty ledger, because it contains `niveau1` |
| ProgressionFacts.LeadingOneIsOpen | game-progression.js:79-81 | every level whose number starts with 1 is unlocked whatever the ledger |
| ProgressionFacts.UnlockFollowsPreviousLevel | game-progression.js:84-95 | a well-formed level N > 1 without `niveau1` is unlocked exactly when level N - 1 of the same step is completed |
| ProgressionFacts.CompletingOpensNext | game-progression.js:92-95 | completing level N - 1 of a step unlocks level N |
| ProgressionFacts.UnlockFollowsPreviousStep | game-progression.js:97-105 | level 0 of step i is unlocked exactly when level 6 of step i - 1 is completed; for the first step it never is |
| ProgressionFacts.UnparsedIsLocked | game-progression.js:84-85 | an identifier without `niveau1` and without a level number is locked |
| ProgressionFacts.StepOrder | game-progression.js:127-131 | the first step and unknown steps have no predecessor; `mare` follows `ruisseau`; `bermudes` follows `antarctique` |

## Findings

| source | as written | input that shows it | evidently intended | confidence | as-written member | corrected member |
|---|---|---|---|---|---|---|
| character-health-system.js:206-215 | `reset()` calls `startHealthMonitoring()` without clearing the intervals that are still running. `die()` clears only the newest set. | `resetGame()` on a live character, then one poisoned second costs 4 health; or a later death, after which the older apnea interval refills the dead character's breath | one clock per life, stopped at death and restarted by reset, as the comments at :195 and :214 say | not executed; follows from `setInterval` semantics whenever `resetGame` runs on a live character, and the pages that call it are not part of this model | IntervalLeak.ResetAsWritten, IntervalLeak.ResetWhileAliveDoublesPoison, IntervalLeak.LeakedIntervalRefillsDeadBreath | IntervalLeak.StepCorrected, IntervalLeak.RunCorrected |
| init-game-level.js:132-168 | `resetGame()` clears `isResting` but does not remove the `handleKeyClose` listener that `observeSky` registered at :310-317. | rest at the sky view, `resetGame()`, move back within 30 of the centre, press space: the start-up listener starts a rest and the left-over listener ends it in the same press, on every later press too | a reset ends the rest the way `closeNostalgia` does, removing its listeners, so the key keeps toggling resting | not executed; follows from DOM dispatch order, since listeners registered before a key press run for it and ones added during it do not | GameLevel.ResetGame, GameLevel.StaleCloserCancelsKeyRest | GameLevel.ResetGameCorrected, GameLevel.StepCorrected, GameLevel.RunCorrected |

For the first row, the rest of the model uses the corrected behaviour. `Health.Tick` runs the interval bodies once per second while alive and not at all once dead. `IntervalLeak.RunCorrected` proves this equals the corrected clock.

For the second row, `GameLevel.Step` and `GameLevel.Run` keep the reset as written, because the left-over listener changes what a later key press does. `GameLevel.RunCorrected` is the intended behaviour, and it equals `GameLevel.Run` on every run without a reset.

## Left out

- DOM access, CSS classes and styles, `createCharacter` and `CHARACTER_CSS`: presentation only. Event-listener wiring is left out too, except the sky modal's close listeners, whose registration and removal change what a key press does and are modelled in `GameLevel.Session`.
- HUD callbacks with percentages and time strings, `getApneaPercent`, `getHealthPercent`, `getProgressPercent`: floating-point display only. The collection, all-collected and victory notifications are kept as an event log; the other notifications are left out.
- Real timers. The three health intervals are assumed to fire in registration order within each second, as apnea, then poison, then rest. Move duration (`speed`, `moveSpeed`) has no effect on state.
- Pixel geometry from `getBoundingClientRect`: each check receives the squared distance from the character to each nugget. Percent coordinates are exact reals, not floating point.
- `Math.random` choice of the sky thought and the sky modal's existence check: the modal is taken to exist, so `observeSky` always registers its close listeners. Whether the modal is shown is not tracked: `GameLevel.ModalClick` is a click on it whenever close listeners are registered.
- `localStorage` load and save, JSON parse errors, the global `gameProgression` instance, and `destroy()`.
- A `null` nugget argument to `collectNugget`, which returns false: nugget ids are never null here.
- Configuration defaults. In character-system.js:75-76, `collectDistance` and `speed` fall back to their defaults with `||`, so a configured 0 becomes the default. In init-game-level.js:25-38, destructuring defaults apply only to missing settings, so a configured 0 stays 0. The health settings are merged over the defaults by object spread at character-health-system.js:23. All of them accept arbitrary numbers; the model takes the resulting settings as given, with non-negative integer health settings and real distances.
- Object-prototype keys in `levelsCompleted` (such as `constructor`) and non-boolean stored values: the ledger is a map from strings to booleans.
- `parseInt` and template rendering of numbers beyond 2^53: numbers are unbounded naturals.
- GameLevel.ResetGame: empties the whole tally. The code at init-game-level.js:135-142 un-collects only the nuggets on the page, so an id passed to the exported `collectNugget` (:386) that is not on the page would stay collected. The model only lets taps reach the page's nuggets (`GameLevel.Step`), so every collected nugget is on the page (`GameLevel.OnPage`), and there the two agree.
- Health.TakeDamage: bounds preservation is stated only for non-negative amounts, because every call in the code passes a positive constant or `poisoningDamage`.
- Health.RestoreHealth: bounds preservation is stated only for non-negative amounts, for the same reason.
- Health.Run: commands carry natural-number amounts, so sequences with negative damage or healing are not covered.

=== FILE: character_system.dfy ===
/**
 * `initCharacterSystem`: moving the character by clicks and collecting the
 * nuggets it comes close to. The one-shot timer that ends a move and the
 * 200 ms collection poll are explicit steps; pixel geometry is abstracted to
 * a given squared distance between the character and each nugget.
 */
module CharacterSystem {
  import opened Geometry
  import opened Collection

  /**
   * The closure's state: the position written to the element's style, the
   * in-transit flag, the nuggets of the page in document order, the
   * collection reach and the tally.
   */
  datatype Mover = Mover(
    x: real,
    y: real,
    moving: bool,
    nuggets: seq<NuggetId>,
    collectDistance: real,
    tally: Tally)

  /** `totalNuggets = nuggets.length`. */
  function Total(m: Mover): int
  {
    |m.nuggets|
  }

  function Start(x: real, y: real, nuggets: seq<NuggetId>, collectDistance: real): (m: Mover)
    ensures !m.moving && Consistent(m.tally) && m.tally.collected == {}
  {
    Mover(x, y, false, nuggets, collectDistance, Empty())
  }

  /** What `moveCharacter` leaves: the closure's state and whether the move was accepted. */
  datatype Moved = Moved(mover: Mover, accepted: bool)

  /** What `collectNugget` leaves: the closure's state, whether the nugget was taken, the notifications. */
  datatype Picked = Picked(mover: Mover, accepted: bool, events: seq<Event>)

  /** What any other input leaves: the closure's state and the notifications, in order. */
  datatype Reaction = Reaction(mover: Mover, events: seq<Event>)

  /**
   * `moveCharacter(x, y, inWaterOnly)`: refused while a move is in transit,
   * or when water-only and the target is on the island; otherwise the clamped
   * target is committed and a transit begins.
   */
  function MoveCharacter(m: Mover, x: real, y: real, inWaterOnly: bool): (res: Moved)
    ensures res.accepted <==> !m.moving && !(inWaterOnly && OnIsland(x, y))
    ensures !res.accepted ==> res.mover == m
    ensures res.accepted ==> res.mover == m.(x := Clamp(x), y := Clamp(y), moving := true)
    ensures res.accepted && inWaterOnly ==> !OnIsland(res.mover.x, res.mover.y)
  {
    if m.moving then Moved(m, false)
    else if inWaterOnly && OnIsland(x, y) then Moved(m, false)
    else if inWaterOnly then
      ClampKeepsOffIsland(x, y);
      Moved(m.(x := Clamp(x), y := Clamp(y), moving := true), true)
    else Moved(m.(x := Clamp(x), y := Clamp(y), moving := true), true)
  }

  /**
   * `collectNugget(n)`, exported by the closure: the total is the number of
   * nuggets on the page, and this closure never announces victory.
   */
  function CollectNugget(m: Mover, n: NuggetId): (res: Picked)
    ensures res.accepted <==> n !in m.tally.collected
    ensures res.mover == m.(tally := res.mover.tally)
    ensures res.accepted ==> res.mover.tally == Tally(m.tally.collected + {n}, m.tally.count + 1)
    ensures !res.accepted ==> res.mover == m && res.events == []
    ensures Fires(res.events) == if res.accepted && res.mover.tally.count == Total(m) then 1 else 0
    ensures Victories(res.events) == 0
  {
    var r := Collect(m.tally, n, Total(m), false);
    Picked(m.(tally := r.tally), r.accepted, r.events)
  }

  /**
   * `checkNuggetCollection()`: nothing while in transit; otherwise every
   * uncollected nugget strictly within `collectDistance` is collected, and
   * all-collected fires exactly when this check brings the count to the total.
   */
  function CheckNuggetCollection(m: Mover, sqDist: NuggetId -> real): (res: Reaction)
    ensures m.moving ==> res == Reaction(m, [])
    ensures res.mover == m.(tally := res.mover.tally)
    ensures !m.moving ==> res.mover.tally.collected == m.tally.collected + InReach(m.nuggets, sqDist, m.collectDistance)
    ensures Consistent(m.tally) ==> Consistent(res.mover.tally)
    ensures res.mover.tally.count >= m.tally.count
    ensures Fires(res.events) == Crossed(m.tally.count, res.mover.tally.count, Total(m))
    ensures Victories(res.events) == 0
  {
    if m.moving then Reaction(m, [])
    else
      var r := Sweep(m.tally, m.nuggets, sqDist, m.collectDistance, Total(m), false);
      Reaction(m.(tally := r.tally), r.events)
  }

  /** The move's timeout: the transit ends, then a collection check runs at the new spot. */
  function CompleteTransit(m: Mover, sqDist: NuggetId -> real): (res: Reaction)
    ensures !res.mover.moving
    ensures res.mover.x == m.x && res.mover.y == m.y && res.mover.nuggets == m.nuggets
    ensures res.mover.tally.collected == m.tally.collected + InReach(m.nuggets, sqDist, m.collectDistance)
    ensures Consistent(m.tally) ==> Consistent(res.mover.tally)
    ensures Fires(res.events) == Crossed(m.tally.count, res.mover.tally.count, Total(m))
  {
    CheckNuggetCollection(m.(moving := false), sqDist)
  }

  /** What can happen to the closure: a click, the end of a transit, a poll, a direct collection. */
  datatype Input =
    | Click(x: real, y: real, inWaterOnly: bool)
    | Arrive(sqDist: NuggetId -> real)
    | Poll(sqDist: NuggetId -> real)
    | Pick(nugget: NuggetId)

  function Step(m: Mover, input: Input): (res: Reaction)
    ensures res.mover.nuggets == m.nuggets
    ensures Consistent(m.tally) ==> Consistent(res.mover.tally)
    ensures res.mover.tally.collected >= m.tally.collected
    ensures res.mover.tally.count >= m.tally.count
    ensures Fires(res.events) == Crossed(m.tally.count, res.mover.tally.count, Total(m))
    ensures Victories(res.events) == 0
  {
    match input
    case Click(x, y, w) => Reaction(MoveCharacter(m, x, y, w).mover, [])
    case Arrive(d) => CompleteTransit(m, d)
    case Poll(d) => CheckNuggetCollection(m, d)
    case Pick(n) => var r := CollectNugget(m, n); Reaction(r.mover, r.events)
  }

  /**
   * Over any sequence of inputs the count stays equal to the number of
   * collected nuggets, and the all-collected notification fires exactly once
   * if the count reaches the number of nuggets on the page, and never otherwise.
   */
  function Run(m: Mover, inputs: seq<Input>): (res: Reaction)
    ensures res.mover.nuggets == m.nuggets
    ensures Consistent(m.tally) ==> Consistent(res.mover.tally)
    ensures res.mover.tally.collected >= m.tally.collected
    ensures res.mover.tally.count >= m.tally.count
    ensures Fires(res.events) == Crossed(m.tally.count, res.mover.tally.count, Total(m))
    ensures Fires(res.events) <= 1 && Victories(res.events) == 0
    decreases |inputs|
  {
    if |inputs| == 0 then Reaction(m, [])
    else
      var first := Step(m, inputs[0]);
      var rest := Run(first.mover, inputs[1..]);
      FiresAppend(first.events, rest.events);
      CrossedSplit(m.tally.count, first.mover.tally.count, rest.mover.tally.count, Total(m));
      Reaction(rest.mover, first.events + rest.events)
  }
}

=== FILE: collection.dfy ===
/**
 * One-shot collection of gold nuggets, shared by the character system and
 * the level orchestrator: a nugget is marked collected at most once, the
 * running count goes up by one per marking, and the all-collected
 * notification fires on the marking that makes the count equal the total.
 */
module Collection {
  import opened Geometry

  /** A nugget element, by identity. */
  type NuggetId = nat

  /** The notifications a collection emits, in order. */
  datatype Event =
    | Collected(nugget: NuggetId, count: int, total: int)
    | AllCollected
    | Victory

  /** The nuggets carrying the `collected` class, and the counter the code keeps beside them. */
  datatype Tally = Tally(collected: set<NuggetId>, count: int)

  /** The counter equals the number of collected nuggets. */
  predicate Consistent(t: Tally)
  {
    t.count == |t.collected|
  }

  function Empty(): (t: Tally)
    ensures Consistent(t) && t.collected == {}
  {
    Tally({}, 0)
  }

  /** The number of occurrences of `e` in a log. */
  function Count(events: seq<Event>, e: Event): nat
    decreases |events|
  {
    if |events| == 0 then 0
    else (if events[0] == e then 1 else 0) + Count(events[1..], e)
  }

  /** The number of all-collected notifications in a log. */
  function Fires(events: seq<Event>): nat
  {
    Count(events, AllCollected)
  }

  /** The number of victory notifications in a log. */
  function Victories(events: seq<Event>): nat
  {
    Count(events, Victory)
  }

  lemma {:induction false} CountAppend(a: seq<Event>, b: seq<Event>, e: Event)
    ensures Count(a + b, e) == Count(a, e) + Count(b, e)
    decreases |a|
  {
    if |a| > 0 {
      assert (a + b)[1..] == a[1..] + b;
      CountAppend(a[1..], b, e);
    } else {
      assert a + b == b;
    }
  }

  /** Both notification counts of a concatenated log add up. */
  lemma FiresAppend(a: seq<Event>, b: seq<Event>)
    ensures Fires(a + b) == Fires(a) + Fires(b)
    ensures Victories(a + b) == Victories(a) + Victories(b)
  {
    CountAppend(a, b, AllCollected);
    CountAppend(a, b, Victory);
  }

  /**
   * 1 when a count going from `before` up to `after` passes the total, that
   * is, when one of the collections in between made the count equal to it.
   */
  function Crossed(before: int, after: int, total: int): nat
  {
    if before < total <= after then 1 else 0
  }

  /** A count that rises in two stretches passes the total in at most one of them. */
  lemma CrossedSplit(a: int, b: int, c: int, total: int)
    requires a <= b <= c
    ensures Crossed(a, b, total) + Crossed(b, c, total) == Crossed(a, c, total)
  {
  }

  /** What `collectNugget` leaves: the tally, whether the nugget was taken, and the notifications. */
  datatype Pickup = Pickup(tally: Tally, accepted: bool, events: seq<Event>)

  /** What a run of collections leaves: the tally and the notifications, in order. */
  datatype Harvest = Harvest(tally: Tally, events: seq<Event>)

  /**
   * `collectNugget(n)`: a nugget already collected is refused; otherwise it
   * is marked, the count rises by exactly one, a collection notification
   * carries the new count and the total, and when the new count equals the
   * total the all-collected notification follows (then the victory one, in
   * the level orchestrator).
   */
  function Collect(t: Tally, n: NuggetId, total: int, victory: bool): (res: Pickup)
    ensures n in t.collected ==> res == Pickup(t, false, [])
    ensures n !in t.collected ==> res.accepted && res.tally == Tally(t.collected + {n}, t.count + 1)
    ensures n !in t.collected ==> |res.events| > 0 && res.events[0] == Collected(n, t.count + 1, total)
    ensures Fires(res.events) == if res.accepted && res.tally.count == total then 1 else 0
    ensures Fires(res.events) == Crossed(t.count, res.tally.count, total)
    ensures Victories(res.events) == if victory then Crossed(t.count, res.tally.count, total) else 0
    ensures Consistent(t) ==> Consistent(res.tally)
  {
    if n in t.collected then Pickup(t, false, [])
    else
      var count := t.count + 1;
      var finale := if count == total then [AllCollected] + (if victory then [Victory] else []) else [];
      var events := [Collected(n, count, total)] + finale;
      FiresAppend([Collected(n, count, total)], finale);
      assert [Collected(n, count, total)][1..] == [];
      assert Fires([AllCollected] + [Victory]) == 1 && Victories([AllCollected] + [Victory]) == 1 by {
        FiresAppend([AllCollected], [Victory]);
        assert [AllCollected][1..] == [] && [Victory][1..] == [];
      }
      assert Fires([AllCollected]) == 1 && Victories([AllCollected]) == 0 by {
        assert [AllCollected][1..] == [];
      }
      Pickup(Tally(t.collected + {n}, count), true, events)
  }

  /** The nuggets of `ns` within reach (`distance < radius`) of the character. */
  function InReach(ns: seq<NuggetId>, sqDist: NuggetId -> real, radius: real): set<NuggetId>
  {
    set i | 0 <= i < |ns| && Closer(sqDist(ns[i]), radius) :: ns[i]
  }

  /** Reach over a non-empty list splits into its head and its tail. */
  lemma InReachCons(ns: seq<NuggetId>, sqDist: NuggetId -> real, radius: real)
    requires |ns| > 0
    ensures InReach(ns, sqDist, radius)
         == (if Closer(sqDist(ns[0]), radius) then {ns[0]} else {}) + InReach(ns[1..], sqDist, radius)
  {
    var head := if Closer(sqDist(ns[0]), radius) then {ns[0]} else {};
    forall m | m in InReach(ns, sqDist, radius)
      ensures m in head + InReach(ns[1..], sqDist, radius)
    {
      var i :| 0 <= i < |ns| && Closer(sqDist(ns[i]), radius) && m == ns[i];
      if i > 0 {
        assert ns[1..][i - 1] == m;
      }
    }
    forall m | m in InReach(ns[1..], sqDist, radius)
      ensures m in InReach(ns, sqDist, radius)
    {
      var i :| 0 <= i < |ns[1..]| && Closer(sqDist(ns[1..][i]), radius) && m == ns[1..][i];
      assert ns[i + 1] == m;
    }
  }

  /** One iteration of the `forEach`: an uncollected nugget within reach is collected. */
  function Visit(t: Tally, n: NuggetId, sqDist: NuggetId -> real, radius: real, total: int, victory: bool)
    : (res: Harvest)
    ensures res.tally.collected == t.collected + (if Closer(sqDist(n), radius) then {n} else {})
    ensures res.tally.count >= t.count
    ensures Consistent(t) ==> Consistent(res.tally)
    ensures Fires(res.events) == Crossed(t.count, res.tally.count, total)
    ensures Victories(res.events) == if victory then Crossed(t.count, res.tally.count, total) else 0
  {
    if n !in t.collected && Closer(sqDist(n), radius) then
      var r := Collect(t, n, total, victory);
      Harvest(r.tally, r.events)
    else Harvest(t, [])
  }

  /**
   * One step of the sweep: visiting the head, then sweeping the tail with
   * what the tail sweep promises, gives what the whole sweep promises.
   */
  lemma SweepStep(t: Tally, ns: seq<NuggetId>, sqDist: NuggetId -> real, radius: real, total: int, victory: bool,
                  first: Harvest, rest: Harvest)
    requires |ns| > 0 && first == Visit(t, ns[0], sqDist, radius, total, victory)
    requires rest.tally.collected == first.tally.collected + InReach(ns[1..], sqDist, radius)
    requires rest.tally.count >= first.tally.count
    requires Consistent(first.tally) ==> Consistent(rest.tally)
    requires Fires(rest.events) == Crossed(first.tally.count, rest.tally.count, total)
    requires Victories(rest.events) == if victory then Crossed(first.tally.count, rest.tally.count, total) else 0
    ensures rest.tally.collected == t.collected + InReach(ns, sqDist, radius)
    ensures Fires(first.events + rest.events) == Crossed(t.count, rest.tally.count, total)
    ensures Victories(first.events + rest.events) == if victory then Crossed(t.count, rest.tally.count, total) else 0
  {
    InReachCons(ns, sqDist, radius);
    FiresAppend(first.events, rest.events);
    CrossedSplit(t.count, first.tally.count, rest.tally.count, total);
  }

  /**
   * The `forEach` of `checkNuggetCollection`: every uncollected nugget within
   * reach is collected, in document order, and nothing else is; all-collected
   * (and victory, when enabled) fire exactly once if the sweep carries the
   * count up to the total, and not at all otherwise.
   */
  function Sweep(t: Tally, ns: seq<NuggetId>, sqDist: NuggetId -> real, radius: real, total: int, victory: bool)
    : (res: Harvest)
    ensures res.tally.collected == t.collected + InReach(ns, sqDist, radius)
    ensures res.tally.count >= t.count
    ensures Consistent(t) ==> Consistent(res.tally)
    ensures Fires(res.events) == Crossed(t.count, res.tally.count, total)
    ensures Victories(res.events) == if victory then Crossed(t.count, res.tally.count, total) else 0
    decreases |ns|
  {
    if |ns| == 0 then Harvest(t, [])
    else
      var first := Visit(t, ns[0], sqDist, radius, total, victory);
      var rest := Sweep(first.tally, ns[1..], sqDist, radius, total, victory);
      SweepStep(t, ns, sqDist, radius, total, victory, first, rest);
      Harvest(rest.tally, first.events + rest.events)
  }
}

=== FILE: game_level.dfy ===
/**
 * `initGameLevel`: one level session. It composes the health system with
 * nugget collection (against the configured total), the underwater
 * classification by distance from the island, resting by observing the sky,
 * and the full reset after death. Timers become explicit `Tick` and poll
 * steps; pixel geometry is a given squared distance per nugget.
 */
module GameLevel {
  import opened Geometry
  import opened Collection
  import Health

  /** The level's settings; `totalNuggets` comes from here, not from the page. */
  datatype LevelConfig = LevelConfig(
    totalNuggets: int,
    startX: real,
    startY: real,
    collectDistance: real,
    health: Health.Config)

  const DefaultLevel: LevelConfig := LevelConfig(6, 20.0, 20.0, 60.0, Health.Defaults)

  /**
   * The closure's state. `moving` is declared by the level but never set,
   * so it stays false. `closers` counts the `handleKeyClose` listeners that
   * `observeSky` left on the document, each paired with a `closeNostalgia`
   * click listener on the sky modal.
   */
  datatype Session = Session(
    health: Health.State,
    x: real,
    y: real,
    moving: bool,
    resting: bool,
    nuggets: seq<NuggetId>,
    tally: Tally,
    closers: nat)

  /** What every reachable session satisfies. */
  predicate Valid(lc: LevelConfig, ss: Session)
  {
    && Health.Valid(lc.health, ss.health)
    && Consistent(ss.tally)
    && !ss.moving
  }

  /**
   * `updateUnderwaterStatus()`: within 30 of the centre the character is out
   * of the water, beyond it underwater.
   */
  function UpdateUnderwaterStatus(lc: LevelConfig, ss: Session): (r: Session)
    ensures r == ss.(health := r.health)
    ensures NearShore(ss.x, ss.y) ==> r.health == Health.SetUnderwater(lc.health, ss.health, false)
    ensures !NearShore(ss.x, ss.y) ==> r.health == Health.SetUnderwater(lc.health, ss.health, true)
    ensures !r.health.dead ==> (r.health.underwater <==> !NearShore(ss.x, ss.y))
    ensures Valid(lc, ss) ==> Valid(lc, r)
  {
    var submerged := !NearShore(ss.x, ss.y);
    ss.(health := Health.SetUnderwater(lc.health, ss.health, submerged))
  }

  /** The start of a level: a new health system at the start position, then classified. */
  function Init(lc: LevelConfig, nuggets: seq<NuggetId>): (ss: Session)
    ensures Valid(lc, ss)
    ensures ss.x == lc.startX && ss.y == lc.startY && !ss.resting && ss.tally.collected == {}
    ensures ss.closers == 0
    ensures lc.health.maxApnea > 0 ==>
              ss.health == Health.New(lc.health).(underwater := !NearShore(lc.startX, lc.startY))
  {
    var begun := Session(Health.New(lc.health), lc.startX, lc.startY, false, false, nuggets, Empty(), 0);
    UpdateUnderwaterStatus(lc, begun)
  }

  /** What `collectNugget` leaves: the session, whether the nugget was taken, the notifications. */
  datatype Picked = Picked(session: Session, accepted: bool, events: seq<Event>)

  /** What any other input leaves: the session and the notifications, in order. */
  datatype Reaction = Reaction(session: Session, events: seq<Event>)

  /**
   * `collectNugget(n)`: one-shot per nugget; all-collected and victory fire
   * on the collection whose count equals the configured total.
   */
  function CollectNugget(lc: LevelConfig, ss: Session, n: NuggetId): (res: Picked)
    ensures res.accepted <==> n !in ss.tally.collected
    ensures res.session == ss.(tally := res.session.tally)
    ensures res.accepted ==> res.session.tally == Tally(ss.tally.collected + {n}, ss.tally.count + 1)
    ensures !res.accepted ==> res.session == ss && res.events == []
    ensures Fires(res.events) == if res.accepted && res.session.tally.count == lc.totalNuggets then 1 else 0
    ensures Victories(res.events) == Fires(res.events)
    ensures res.accepted && res.session.tally.count == lc.totalNuggets ==>
              res.events == [Collected(n, lc.totalNuggets, lc.totalNuggets), AllCollected, Victory]
    ensures Valid(lc, ss) ==> Valid(lc, res.session)
  {
    var r := Collect(ss.tally, n, lc.totalNuggets, true);
    Picked(ss.(tally := r.tally), r.accepted, r.events)
  }

  /**
   * `checkNuggetCollection()` and the 200 ms poll around it: nothing while
   * resting or dead; otherwise every uncollected nugget strictly within
   * `collectDistance` is collected, and all-collected and victory each fire
   * once exactly when this poll brings the count to the configured total.
   */
  function CheckNuggetCollection(lc: LevelConfig, ss: Session, sqDist: NuggetId -> real): (res: Reaction)
    ensures ss.resting || ss.health.dead ==> res == Reaction(ss, [])
    ensures res.session == ss.(tally := res.session.tally)
    ensures !(ss.resting || ss.health.dead) ==>
              res.session.tally.collected == ss.tally.collected + InReach(ss.nuggets, sqDist, lc.collectDistance)
    ensures Valid(lc, ss) ==> Valid(lc, res.session)
    ensures res.session.tally.count >= ss.tally.count
    ensures Fires(res.events) == Crossed(ss.tally.count, res.session.tally.count, lc.totalNuggets)
    ensures Victories(res.events) == Fires(res.events)
  {
    if ss.resting || ss.health.dead then Reaction(ss, [])
    else
      var r := Sweep(ss.tally, ss.nuggets, sqDist, lc.collectDistance, lc.totalNuggets, true);
      Reaction(ss.(tally := r.tally), r.events)
  }

  /**
   * `observeSky()`: unless already resting or dead, starts a rest, puts the
   * character at the centre without reclassifying whether it is underwater,
   * and registers one more pair of close listeners.
   */
  function ObserveSky(lc: LevelConfig, ss: Session): (r: Session)
    ensures ss.resting || ss.health.dead ==> r == ss
    ensures !(ss.resting || ss.health.dead) ==>
              r == ss.(resting := true, health := ss.health.(resting := true), x := Centre, y := Centre,
                       closers := ss.closers + 1)
    ensures r.health.underwater == ss.health.underwater
    ensures Valid(lc, ss) ==> Valid(lc, r)
  {
    if ss.resting || ss.health.dead then ss
    else ss.(resting := true, health := Health.StartRest(ss.health), x := Centre, y := Centre,
             closers := ss.closers + 1)
  }

  /** What ending a rest does to the flags, in `closeNostalgia` and in the rest key: both clear. */
  function EndRest(ss: Session): (r: Session)
    ensures !r.resting && !r.health.resting
    ensures r.(resting := ss.resting, health := ss.health) == ss
    ensures r.health.(resting := ss.health.resting) == ss.health
  {
    ss.(resting := false, health := Health.StopRest(ss.health))
  }

  /**
   * The rest-key listener registered at start-up: starts a rest when within
   * 30 of the centre, not resting and alive; otherwise ends a rest in
   * progress, leaving the close listeners in place.
   */
  function RestKey(lc: LevelConfig, ss: Session): (r: Session)
    ensures NearShore(ss.x, ss.y) && !ss.resting && !ss.health.dead ==>
              r == ObserveSky(lc, ss) && r.resting && r.health.resting && r.x == Centre && r.y == Centre
    ensures ss.resting ==> r == EndRest(ss)
    ensures !ss.resting && (!NearShore(ss.x, ss.y) || ss.health.dead) ==> r == ss
    ensures Valid(lc, ss) ==> Valid(lc, r)
  {
    if NearShore(ss.x, ss.y) && !ss.resting && !ss.health.dead then ObserveSky(lc, ss)
    else if ss.resting then EndRest(ss)
    else ss
  }

  /**
   * A space or escape key press. The rest-key listener runs first; then
   * every `handleKeyClose` that was registered before this press runs
   * `closeNostalgia`, which ends the rest and removes its own listeners. A
   * listener the press itself registers does not run for it.
   */
  function KeyPress(lc: LevelConfig, ss: Session): (r: Session)
    ensures ss.closers == 0 ==> r == RestKey(lc, ss)
    ensures ss.closers > 0 ==> !r.resting && !r.health.resting
    ensures r.x == RestKey(lc, ss).x && r.y == RestKey(lc, ss).y
    ensures r.tally == ss.tally && r.nuggets == ss.nuggets && r.health.underwater == ss.health.underwater
    ensures r.health.(resting := ss.health.resting) == ss.health
    ensures r.closers == if NearShore(ss.x, ss.y) && !ss.resting && !ss.health.dead then 1 else 0
    ensures Valid(lc, ss) ==> Valid(lc, r)
  {
    var handled := RestKey(lc, ss);
    if ss.closers == 0 then handled
    else EndRest(handled).(closers := handled.closers - ss.closers)
  }

  /**
   * A click on the sky modal: every registered `closeNostalgia` runs, each
   * ending the rest and removing its own pair of listeners. With none
   * registered, nothing listens.
   */
  function ModalClick(ss: Session): (r: Session)
    ensures ss.closers == 0 ==> r == ss
    ensures ss.closers > 0 ==> r == EndRest(ss).(closers := 0)
    ensures r.closers == 0 && r.tally == ss.tally
  {
    if ss.closers == 0 then ss else EndRest(ss).(closers := 0)
  }

  /**
   * Close listeners match the rest: one pair while resting, none otherwise.
   * Every input but `resetGame` keeps this.
   */
  predicate ClosersMatchRest(ss: Session)
  {
    ss.closers == if ss.resting then 1 else 0
  }

  /**
   * With listeners matching the rest, the key toggles resting: near the
   * centre it starts a rest, and during one it ends it.
   */
  lemma KeyTogglesRest(lc: LevelConfig, ss: Session)
    requires ClosersMatchRest(ss)
    ensures NearShore(ss.x, ss.y) && !ss.resting && !ss.health.dead ==> KeyPress(lc, ss).resting
    ensures ss.resting ==> !KeyPress(lc, ss).resting
    ensures ClosersMatchRest(KeyPress(lc, ss))
  {
  }

  /**
   * `resetGame()`: a new life, no nugget collected, back at the start
   * position, not resting, and then declared underwater wherever the start is.
   * The close listeners of an interrupted rest stay registered.
   */
  function ResetGame(lc: LevelConfig, ss: Session): (r: Session)
    ensures r.tally == Empty() && r.x == lc.startX && r.y == lc.startY && !r.resting
    ensures r.nuggets == ss.nuggets && r.moving == ss.moving && r.closers == ss.closers
    ensures lc.health.maxApnea > 0 ==> r.health == Health.New(lc.health).(underwater := true)
    ensures Valid(lc, ss) ==> Valid(lc, r)
  {
    var restarted := ss.(health := Health.Reset(lc.health, ss.health), tally := Empty(),
                         x := lc.startX, y := lc.startY, resting := false);
    restarted.(health := Health.SetUnderwater(lc.health, restarted.health, true))
  }

  /** `setPosition(x, y)`: stored as given, with no clamp or island check, then classified. */
  function SetPosition(lc: LevelConfig, ss: Session, x: real, y: real): (r: Session)
    ensures r.x == x && r.y == y
    ensures r == UpdateUnderwaterStatus(lc, ss.(x := x, y := y))
    ensures Valid(lc, ss) ==> Valid(lc, r)
  {
    UpdateUnderwaterStatus(lc, ss.(x := x, y := y))
  }

  /** What can happen to a session. */
  datatype Input =
    | Tap(nugget: NuggetId)
    | Poll(sqDist: NuggetId -> real)
    | Place(x: real, y: real)
    | Sky
    | Key
    | CloseSky
    | Restart
    | Survival(cmd: Health.Cmd)

  /** Every collected nugget is one of the page's nuggets. */
  predicate OnPage(ss: Session)
  {
    forall n :: n in ss.tally.collected ==> n in ss.nuggets
  }

  /**
   * One input. Taps and clicks on a nugget of the page collect it directly,
   * without the resting and death guard of the poll; only the page's nuggets
   * carry those listeners, so a tap on anything else does nothing.
   */
  function Step(lc: LevelConfig, ss: Session, input: Input): (res: Reaction)
    ensures Valid(lc, ss) ==> Valid(lc, res.session)
    ensures res.session.nuggets == ss.nuggets
    ensures !input.Restart? ==> res.session.tally.collected >= ss.tally.collected
    ensures !input.Restart? ==> res.session.tally.count >= ss.tally.count
    ensures !input.Restart? ==>
              Fires(res.events) == Crossed(ss.tally.count, res.session.tally.count, lc.totalNuggets)
    ensures Victories(res.events) == Fires(res.events)
    ensures input.Restart? ==> res.events == [] && res.session.tally == Empty()
    ensures !input.Restart? && ClosersMatchRest(ss) ==> ClosersMatchRest(res.session)
    ensures input.Tap? && input.nugget !in ss.nuggets ==> res == Reaction(ss, [])
    ensures OnPage(ss) ==> OnPage(res.session)
  {
    match input
    case Tap(n) =>
      if n in ss.nuggets then var r := CollectNugget(lc, ss, n); Reaction(r.session, r.events)
      else Reaction(ss, [])
    case Poll(d) => CheckNuggetCollection(lc, ss, d)
    case Place(x, y) => Reaction(SetPosition(lc, ss, x, y), [])
    case Sky => Reaction(ObserveSky(lc, ss), [])
    case Key => Reaction(KeyPress(lc, ss), [])
    case CloseSky => Reaction(ModalClick(ss), [])
    case Restart => Reaction(ResetGame(lc, ss), [])
    case Survival(cmd) => Reaction(ss.(health := Health.Step(lc.health, ss.health, cmd)), [])
  }

  predicate NoRestart(inputs: seq<Input>)
  {
    forall i :: 0 <= i < |inputs| ==> !inputs[i].Restart?
  }

  /**
   * Any run keeps the session valid (bounded health, count equal to the
   * number of collected nuggets, never moving) and emits victory exactly as
   * often as all-collected; between resets the collected set only grows and
   * the pair fires exactly once if the count reaches the configured total,
   * and never otherwise.
   */
  function Run(lc: LevelConfig, ss: Session, inputs: seq<Input>): (res: Reaction)
    ensures Valid(lc, ss) ==> Valid(lc, res.session)
    ensures res.session.nuggets == ss.nuggets
    ensures Victories(res.events) == Fires(res.events)
    ensures NoRestart(inputs) ==> res.session.tally.collected >= ss.tally.collected
    ensures NoRestart(inputs) ==> res.session.tally.count >= ss.tally.count
    ensures NoRestart(inputs) ==>
              Fires(res.events) == Crossed(ss.tally.count, res.session.tally.count, lc.totalNuggets)
    ensures NoRestart(inputs) ==> Fires(res.events) <= 1
    ensures NoRestart(inputs) && ClosersMatchRest(ss) ==> ClosersMatchRest(res.session)
    ensures OnPage(ss) ==> OnPage(res.session)
    decreases |inputs|
  {
    if |inputs| == 0 then Reaction(ss, [])
    else
      var first := Step(lc, ss, inputs[0]);
      var rest := Run(lc, first.session, inputs[1..]);
      assert NoRestart(inputs) ==> NoRestart(inputs[1..]) by {
        forall i | 0 <= i < |inputs[1..]| ensures inputs[1..][i] == inputs[i + 1] { }
      }
      FiresAppend(first.events, rest.events);
      assert NoRestart(inputs) ==>
               Fires(first.events + rest.events)
               == Crossed(ss.tally.count, rest.session.tally.count, lc.totalNuggets) by {
        if NoRestart(inputs) {
          CrossedSplit(ss.tally.count, first.session.tally.count, rest.session.tally.count, lc.totalNuggets);
        }
      }
      Reaction(rest.session, first.events + rest.events)
  }

  /**
   * A rest interrupted by `resetGame` leaves its key listener behind. Once
   * the character is back near the centre, the rest key starts a rest and
   * the left-over listener ends it in the same key press; a second press
   * does the same again.
   */
  lemma StaleCloserCancelsKeyRest()
    ensures var lc := DefaultLevel;
            var resting := ObserveSky(lc, Init(lc, []));
            var back := SetPosition(lc, ResetGame(lc, resting), Centre, Centre);
            var pressed := KeyPress(lc, back);
            && resting.resting && !back.resting && back.closers == 1
            && NearShore(back.x, back.y) && !back.health.dead
            && RestKey(lc, back).resting
            && !pressed.resting && pressed.closers == 1
            && !KeyPress(lc, pressed).resting
  {
    var lc := DefaultLevel;
    var ss := Init(lc, []);
    assert ss.health == Health.New(Health.Defaults).(underwater := true) by {
      assert !NearShore(20.0, 20.0);
    }
    var resting := ObserveSky(lc, ss);
    var reset := ResetGame(lc, resting);
    assert reset.health == Health.New(Health.Defaults).(underwater := true);
    var back := SetPosition(lc, reset, Centre, Centre);
    assert NearShore(back.x, back.y);
  }

  /** `resetGame()` as intended: the listeners of an interrupted rest are removed as well. */
  function ResetGameCorrected(lc: LevelConfig, ss: Session): (r: Session)
    ensures r == ResetGame(lc, ss).(closers := 0)
    ensures ClosersMatchRest(r)
    ensures Valid(lc, ss) ==> Valid(lc, r)
  {
    ResetGame(lc, ss).(closers := 0)
  }

  /** One input, with the intended reset. */
  function StepCorrected(lc: LevelConfig, ss: Session, input: Input): (res: Reaction)
    ensures !input.Restart? ==> res == Step(lc, ss, input)
    ensures input.Restart? ==> res == Reaction(ResetGameCorrected(lc, ss), [])
    ensures Valid(lc, ss) ==> Valid(lc, res.session)
    ensures ClosersMatchRest(ss) ==> ClosersMatchRest(res.session)
  {
    if input.Restart? then Reaction(ResetGameCorrected(lc, ss), []) else Step(lc, ss, input)
  }

  /**
   * With the intended reset, close listeners match the rest over any run,
   * resets included, so the rest key keeps toggling resting (`KeyTogglesRest`).
   */
  function RunCorrected(lc: LevelConfig, ss: Session, inputs: seq<Input>): (res: Reaction)
    ensures Valid(lc, ss) ==> Valid(lc, res.session)
    ensures ClosersMatchRest(ss) ==> ClosersMatchRest(res.session)
    ensures NoRestart(inputs) ==> res == Run(lc, ss, inputs)
    decreases |inputs|
  {
    if |inputs| == 0 then Reaction(ss, [])
    else
      var first := StepCorrected(lc, ss, inputs[0]);
      var rest := RunCorrected(lc, first.session, inputs[1..]);
      assert NoRestart(inputs) ==> NoRestart(inputs[1..]) by {
        forall i | 0 <= i < |inputs[1..]| ensures inputs[1..][i] == inputs[i + 1] { }
      }
      Reaction(rest.session, first.events + rest.events)
  }

  /**
   * Observing the sky from open water moves the character to the centre but
   * leaves it declared underwater: once the rest ends, the next second drains
   * breath on the island, until the next `setPosition` reclassifies it.
   */
  lemma SkyLeavesCharacterSubmerged()
    ensures var ss := Init(DefaultLevel, []);
            var sky := ObserveSky(DefaultLevel, ss);
            var after := EndRest(sky);
            && ss.health.underwater
            && sky.x == Centre && sky.y == Centre && NearShore(sky.x, sky.y)
            && after.health.underwater
            && Health.Tick(DefaultLevel.health, after.health).apnea == 419000
  {
    var ss := Init(DefaultLevel, []);
    assert !NearShore(20.0, 20.0);
    assert ss.health == Health.New(Health.Defaults).(underwater := true);
  }
}

=== FILE: geometry.dfy ===
/**
 * Playfield geometry in percentage coordinates. The island is a disc centred
 * on (50, 50). Every `Math.sqrt(d2) <= r` of the game becomes `d2 <= r * r`,
 * which is exact over the reals for a non-negative radius.
 */
module Geometry {

  const Centre: real := 50.0
  /** Radius of the island disc a water-only move may not enter. */
  const IslandRadius: real := 25.0
  /** Radius within which the character counts as out of the water. */
  const ShoreRadius: real := 30.0
  const MinCoord: real := 5.0
  const MaxCoord: real := 95.0

  function SqDistFromCentre(x: real, y: real): real
  {
    (x - Centre) * (x - Centre) + (y - Centre) * (y - Centre)
  }

  /** The point is on the island: distance from the centre at most 25. */
  predicate OnIsland(x: real, y: real)
  {
    SqDistFromCentre(x, y) <= IslandRadius * IslandRadius
  }

  /** The point is out of the water: distance from the centre at most 30. */
  predicate NearShore(x: real, y: real)
  {
    SqDistFromCentre(x, y) <= ShoreRadius * ShoreRadius
  }

  /** `distance < radius`, given the squared distance. A non-positive radius admits nothing. */
  predicate Closer(sqDist: real, radius: real)
  {
    radius > 0.0 && sqDist < radius * radius
  }

  /** `Math.max(5, Math.min(95, v))`. */
  function Clamp(v: real): (r: real)
    ensures MinCoord <= r <= MaxCoord
    ensures MinCoord <= v <= MaxCoord ==> r == v
    ensures v < MinCoord ==> r == MinCoord
    ensures v > MaxCoord ==> r == MaxCoord
  {
    if v > MaxCoord then MaxCoord else if v < MinCoord then MinCoord else v
  }

  /**
   * Clamping a point that is off the island never moves it onto the island:
   * a coordinate the clamp changes ends 45 away from the centre.
   */
  lemma ClampKeepsOffIsland(x: real, y: real)
    requires !OnIsland(x, y)
    ensures !OnIsland(Clamp(x), Clamp(y))
  {
    var cx, cy := Clamp(x), Clamp(y);
    if cx == x && cy == y {
    } else if cx != x {
      assert (cx - Centre) * (cx - Centre) == 2025.0;
      assert (cy - Centre) * (cy - Centre) >= 0.0;
    } else {
      assert (cy - Centre) * (cy - Centre) == 2025.0;
      assert (cx - Centre) * (cx - Centre) >= 0.0;
    }
  }
}

=== FILE: health.dfy ===
/**
 * The survival state machine of `CharacterHealthSystem`: health, breath
 * budget (apnea, in milliseconds) and the underwater, poisoned, resting and
 * dead flags. Every operation is a pure function from the old state to the
 * new one; notifications to the HUD are not modelled.
 *
 * The three one-second intervals are folded into one `Tick` that runs their
 * bodies in registration order: apnea, then poison, then rest. `die()`
 * clears the intervals, so a dead system does not tick.
 */
module Health {
  import opened Util

  /** The overridable settings, with the defaults in `Defaults`. */
  datatype Config = Config(
    maxApnea: nat,
    maxHealth: nat,
    healthRestoreRest: nat,
    healthRestoreAntidote: nat,
    poisoningDamage: nat,
    deathOnApneaExpired: bool,
    deathOnHealthZero: bool)

  const Defaults: Config := Config(7 * 60 * 1000, 100, 1, 50, 2, true, true)

  /** Fixed amounts written into the interval bodies and into setUnderwater. */
  const ApneaDrain: int := 1000
  const ApneaSurfaceRegen: int := 2000
  const ApneaRestRegen: int := 3000
  const ApneaExpiredDamage: int := 5
  const ApneaExhaustedDamage: int := 10

  datatype State = State(
    health: int,
    apnea: int,
    underwater: bool,
    poisoned: bool,
    resting: bool,
    dead: bool)

  /** Bounds every reachable state keeps; a dead character neither rests nor swims. */
  predicate Valid(c: Config, s: State)
  {
    && 0 <= s.health <= c.maxHealth
    && 0 <= s.apnea <= c.maxApnea
    && (s.dead ==> !s.resting && !s.underwater)
  }

  /** Full health, full breath, every flag cleared. */
  predicate Pristine(c: Config, s: State)
  {
    && s.health == c.maxHealth
    && s.apnea == c.maxApnea
    && !s.underwater && !s.poisoned && !s.resting && !s.dead
  }

  /** The constructor. */
  function New(c: Config): (s: State)
    ensures Pristine(c, s)
    ensures Valid(c, s)
  {
    State(c.maxHealth, c.maxApnea, false, false, false, false)
  }

  /** `reset()`: whatever came before, including death, a new life starts. */
  function Reset(c: Config, s: State): (r: State)
    ensures Pristine(c, r)
    ensures r == New(c)
  {
    New(c)
  }

  /** `die()`: idempotent; the first call sets `dead` and stops resting and swimming. */
  function Die(s: State): (r: State)
    ensures r.dead
    ensures s.dead ==> r == s
    ensures !s.dead ==> !r.resting && !r.underwater
    ensures r.health == s.health && r.apnea == s.apnea && r.poisoned == s.poisoned
  {
    if s.dead then s
    else s.(dead := true, resting := false, underwater := false)
  }

  /** `takeDamage(amount)`: health drops and is floored at 0; reaching 0 kills when configured. */
  function TakeDamage(c: Config, s: State, amount: int): (r: State)
    ensures s.dead ==> r == s
    ensures !s.dead ==> r.health == Max(0, s.health - amount)
    ensures !s.dead ==> (r.dead <==> r.health == 0 && c.deathOnHealthZero)
    ensures r.apnea == s.apnea && r.poisoned == s.poisoned
    ensures !r.dead ==> r.resting == s.resting && r.underwater == s.underwater
    ensures Valid(c, s) && amount >= 0 ==> Valid(c, r)
  {
    if s.dead then s
    else
      var lowered := s.health - amount;
      var hurt := s.(health := if lowered < 0 then 0 else lowered);
      if hurt.health <= 0 && c.deathOnHealthZero then Die(hurt) else hurt
  }

  /** `restoreHealth(amount)`: health rises and is capped at `maxHealth`. */
  function RestoreHealth(c: Config, s: State, amount: int): (r: State)
    ensures s.dead ==> r == s
    ensures !s.dead ==> r == s.(health := Min(c.maxHealth, s.health + amount))
    ensures Valid(c, s) && amount >= 0 ==> Valid(c, r) && r.health >= s.health
  {
    if s.dead then s
    else
      var raised := s.health + amount;
      s.(health := if raised > c.maxHealth then c.maxHealth else raised)
  }

  /**
   * `setUnderwater(flag)`: records the flag; diving with no breath left costs
   * 10 health at once.
   */
  function SetUnderwater(c: Config, s: State, flag: bool): (r: State)
    ensures s.dead ==> r == s
    ensures !s.dead && !(flag && s.apnea <= 0) ==> r == s.(underwater := flag)
    ensures !s.dead && flag && s.apnea <= 0 ==>
              r.health == Max(0, s.health - ApneaExhaustedDamage) && (r.underwater <==> !r.dead)
    ensures !s.dead && flag && s.apnea <= 0 ==> r == TakeDamage(c, s.(underwater := true), ApneaExhaustedDamage)
    ensures r.apnea == s.apnea && r.poisoned == s.poisoned
    ensures Valid(c, s) ==> Valid(c, r)
  {
    if s.dead then s
    else
      var marked := s.(underwater := flag);
      if flag && s.apnea <= 0 then TakeDamage(c, marked, ApneaExhaustedDamage) else marked
  }

  /** What `useAntidote()` leaves: the state, and whether the antidote took effect. */
  datatype Dose = Dose(state: State, applied: bool)

  /**
   * `useAntidote()`: on a live character, cures poison and restores
   * `healthRestoreAntidote` health; reports whether it did anything.
   */
  function UseAntidote(c: Config, s: State): (res: Dose)
    ensures res.applied <==> !s.dead
    ensures !res.applied ==> res.state == s
    ensures res.applied ==>
              res.state == s.(poisoned := false, health := Min(c.maxHealth, s.health + c.healthRestoreAntidote))
    ensures Valid(c, s) ==> Valid(c, res.state)
  {
    if s.dead then Dose(s, false)
    else Dose(RestoreHealth(c, s.(poisoned := false), c.healthRestoreAntidote), true)
  }

  /** `setPoisoned(flag)`. */
  function SetPoisoned(s: State, flag: bool): (r: State)
    ensures s.dead ==> r == s
    ensures !s.dead ==> r == s.(poisoned := flag)
  {
    if s.dead then s else s.(poisoned := flag)
  }

  /** `startRest()`. */
  function StartRest(s: State): (r: State)
    ensures s.dead ==> r == s
    ensures !s.dead ==> r == s.(resting := true)
  {
    if s.dead then s else s.(resting := true)
  }

  /** `stopRest()`: not guarded by `isDead`, but a dead character is never resting. */
  function StopRest(s: State): (r: State)
    ensures !r.resting
    ensures r.(resting := s.resting) == s
  {
    s.(resting := false)
  }

  /**
   * The apnea interval body: underwater and neither dead nor resting drains
   * 1000 (floored at 0) and, once empty, costs 5 health in the same tick;
   * out of the water it refills by 2000 up to the maximum.
   */
  function ApneaTick(c: Config, s: State): (r: State)
    ensures Valid(c, s) ==> Valid(c, r)
    ensures r.poisoned == s.poisoned
    ensures s.underwater && !s.dead && !s.resting && s.apnea > ApneaDrain ==>
              r == s.(apnea := s.apnea - ApneaDrain)
    ensures s.underwater && !s.dead && !s.resting && s.apnea <= ApneaDrain ==>
              r == if c.deathOnApneaExpired then TakeDamage(c, s.(apnea := 0), ApneaExpiredDamage)
                   else s.(apnea := 0)
    ensures s.underwater && (s.dead || s.resting) ==> r == s
    ensures !s.underwater ==> r == s.(apnea := r.apnea)
    ensures !s.underwater && s.apnea < c.maxApnea ==> r.apnea == Min(c.maxApnea, s.apnea + ApneaSurfaceRegen)
    ensures !s.underwater && s.apnea >= c.maxApnea ==> r == s
  {
    if s.underwater && !s.dead && !s.resting then
      var lowered := s.apnea - ApneaDrain;
      var drained := s.(apnea := if lowered < 0 then 0 else lowered);
      if drained.apnea <= 0 && c.deathOnApneaExpired then TakeDamage(c, drained, ApneaExpiredDamage)
      else drained
    else if !s.underwater && s.apnea < c.maxApnea then
      var raised := s.apnea + ApneaSurfaceRegen;
      s.(apnea := if raised > c.maxApnea then c.maxApnea else raised)
    else s
  }

  /** The poison interval body: `poisoningDamage` per tick unless dead or resting. */
  function PoisonTick(c: Config, s: State): (r: State)
    ensures Valid(c, s) ==> Valid(c, r)
    ensures r.poisoned == s.poisoned
  {
    if s.poisoned && !s.dead && !s.resting then TakeDamage(c, s, c.poisoningDamage) else s
  }

  /** The rest interval body: a resting live character regains health and 3000 of breath. */
  function RestTick(c: Config, s: State): (r: State)
    ensures Valid(c, s) ==> Valid(c, r)
    ensures r.poisoned == s.poisoned && r.dead == s.dead
  {
    if s.resting && !s.dead then
      var healed := RestoreHealth(c, s, c.healthRestoreRest);
      if healed.apnea < c.maxApnea then
        var raised := healed.apnea + ApneaRestRegen;
        healed.(apnea := if raised > c.maxApnea then c.maxApnea else raised)
      else healed
    else s
  }

  /** One second of the three intervals while they are running. */
  function TickBodies(c: Config, s: State): (r: State)
    ensures Valid(c, s) ==> Valid(c, r)
  {
    RestTick(c, PoisonTick(c, ApneaTick(c, s)))
  }

  /** One second of simulated time: nothing happens once `die()` has cleared the intervals. */
  function Tick(c: Config, s: State): (r: State)
    ensures s.dead ==> r == s
    ensures Valid(c, s) ==> Valid(c, r)
    ensures Valid(c, s) && r.dead ==> r.health == 0 || s.dead
  {
    if s.dead then s else TickBodies(c, s)
  }

  /** `k` seconds of simulated time. */
  function Ticks(c: Config, s: State, k: nat): (r: State)
    ensures Valid(c, s) ==> Valid(c, r)
    ensures s.dead ==> r == s
    decreases k
  {
    if k == 0 then s else Ticks(c, Tick(c, s), k - 1)
  }

  /** The calls a caller can make on a health system, plus the passing of one second. */
  datatype Cmd =
    | Damage(amount: nat)
    | Heal(amount: nat)
    | Submerge(flag: bool)
    | Antidote
    | Poison(flag: bool)
    | RestStart
    | RestStop
    | Kill
    | Restart
    | Second

  function Step(c: Config, s: State, cmd: Cmd): (r: State)
    ensures Valid(c, s) ==> Valid(c, r)
    ensures Valid(c, s) && s.dead && !cmd.Restart? ==> r == s
    ensures cmd.Restart? ==> Pristine(c, r)
  {
    match cmd
    case Damage(n) => TakeDamage(c, s, n)
    case Heal(n) => RestoreHealth(c, s, n)
    case Submerge(flag) => SetUnderwater(c, s, flag)
    case Antidote => UseAntidote(c, s).state
    case Poison(flag) => SetPoisoned(s, flag)
    case RestStart => StartRest(s)
    case RestStop => StopRest(s)
    case Kill => Die(s)
    case Restart => Reset(c, s)
    case Second => Tick(c, s)
  }

  predicate NoRestart(cmds: seq<Cmd>)
  {
    forall i :: 0 <= i < |cmds| ==> !cmds[i].Restart?
  }

  /**
   * A sequence of calls keeps the bounds, and death is absorbing: from a dead
   * state nothing but `reset()` changes any field.
   */
  function Run(c: Config, s: State, cmds: seq<Cmd>): (r: State)
    ensures Valid(c, s) ==> Valid(c, r)
    ensures Valid(c, s) && s.dead && NoRestart(cmds) ==> r == s
    decreases |cmds|
  {
    if |cmds| == 0 then s
    else
      assert NoRestart(cmds) ==> NoRestart(cmds[1..]) by {
        forall i | 0 <= i < |cmds[1..]| ensures cmds[1..][i] == cmds[i + 1] { }
      }
      Run(c, Step(c, s, cmds[0]), cmds[1..])
  }
}

=== FILE: health_scenarios.dfy ===
/**
 * Facts about sequences of health-system calls and ticks: the three tick
 * cases, the numeric scenarios, and reset.
 */
module HealthScenarios {
  import opened Util
  import opened Health

  /** `Ticks` peels seconds off the front; this peels the last one off the back. */
  lemma {:induction false} TicksLast(c: Config, s: State, k: nat)
    ensures Ticks(c, s, k + 1) == Tick(c, Ticks(c, s, k))
    decreases k
  {
    if k > 0 {
      TicksLast(c, Tick(c, s), k - 1);
    }
  }

  /** A new system and a reset system are the same pristine state, whatever was reset. */
  lemma ResetIsNew(c: Config, s: State)
    ensures Reset(c, s) == New(c)
    ensures Valid(c, Reset(c, s)) && Pristine(c, Reset(c, s))
  {
  }

  /** `die()` twice is `die()` once. */
  lemma DieIdempotent(s: State)
    ensures Die(Die(s)) == Die(s)
  {
  }

  /**
   * Every single call on a dead system leaves it unchanged, and the antidote
   * reports failure.
   */
  lemma DeadIgnoresCalls(c: Config, s: State, amount: int, flag: bool)
    requires Valid(c, s) && s.dead
    ensures TakeDamage(c, s, amount) == s && RestoreHealth(c, s, amount) == s
    ensures SetUnderwater(c, s, flag) == s && SetPoisoned(s, flag) == s
    ensures StartRest(s) == s && StopRest(s) == s && Die(s) == s
    ensures UseAntidote(c, s) == Dose(s, false)
    ensures Tick(c, s) == s
  {
  }

  /**
   * Apnea tick, underwater case: a live, submerged, non-resting character
   * loses 1000 of breath per second; no health is lost while breath remains.
   */
  lemma {:induction false} DrainWhileSubmerged(c: Config, s: State, k: nat)
    requires s.underwater && !s.dead && !s.resting && !s.poisoned
    requires s.apnea > ApneaDrain * k
    ensures Ticks(c, s, k) == s.(apnea := s.apnea - ApneaDrain * k)
    decreases k
  {
    if k > 0 {
      var next := s.(apnea := s.apnea - ApneaDrain);
      assert Tick(c, s) == next;
      DrainWhileSubmerged(c, next, k - 1);
    }
  }

  /**
   * Scenario: diving from full breath on the defaults, 419 seconds leave 1000
   * of breath at full health; second 420 empties it and costs 5 health in
   * that same second.
   */
  lemma BreathRunsOutOnSecond420()
    ensures var dive := SetUnderwater(Defaults, New(Defaults), true);
            && Ticks(Defaults, dive, 419) == dive.(apnea := 1000)
            && Ticks(Defaults, dive, 420).apnea == 0
            && Ticks(Defaults, dive, 420).health == 95
            && !Ticks(Defaults, dive, 420).dead
  {
    var dive := SetUnderwater(Defaults, New(Defaults), true);
    assert dive == New(Defaults).(underwater := true);
    DrainWhileSubmerged(Defaults, dive, 419);
    TicksLast(Defaults, dive, 419);
  }

  /** Scenario: with no breath left, diving costs 10 health before any tick. */
  lemma ExhaustedDiveCostsTen()
    ensures var s := New(Defaults).(apnea := 0);
            SetUnderwater(Defaults, s, true) == s.(underwater := true, health := 90)
  {
  }

  /**
   * The apnea tick over a whole second: out of the water breath refills by
   * 2000 up to the maximum; underwater it drains by 1000, and the second that
   * empties it also costs 5 health when breath expiry is lethal; underwater
   * and resting, the apnea body leaves everything alone.
   */
  lemma ApneaTickCases(c: Config, s: State)
    requires Valid(c, s) && !s.dead && !s.poisoned
    ensures !s.underwater && !s.resting ==>
              Tick(c, s) == s.(apnea := Min(c.maxApnea, s.apnea + ApneaSurfaceRegen))
    ensures s.underwater && !s.resting && s.apnea > ApneaDrain ==>
              Tick(c, s) == s.(apnea := s.apnea - ApneaDrain)
    ensures s.underwater && !s.resting && s.apnea <= ApneaDrain && c.deathOnApneaExpired ==>
              Tick(c, s) == TakeDamage(c, s.(apnea := 0), ApneaExpiredDamage)
    ensures s.underwater && !s.resting && s.apnea <= ApneaDrain && !c.deathOnApneaExpired ==>
              Tick(c, s) == s.(apnea := 0)
    ensures s.underwater && s.resting ==> ApneaTick(c, s) == s
  {
  }

  /**
   * Poison: a poisoned, live, surfaced, non-resting character loses exactly
   * `poisoningDamage` per second for as long as health stays positive.
   */
  lemma {:induction false} PoisonDrains(c: Config, s: State, k: nat)
    requires Valid(c, s) && !s.dead && s.poisoned && !s.resting && !s.underwater
    requires s.health > c.poisoningDamage * k
    ensures Ticks(c, s, k).health == s.health - c.poisoningDamage * k
    ensures Ticks(c, s, k).poisoned && !Ticks(c, s, k).dead && !Ticks(c, s, k).underwater
    ensures !Ticks(c, s, k).resting
    decreases k
  {
    if k > 0 {
      var next := Tick(c, s);
      assert c.poisoningDamage * k == c.poisoningDamage * (k - 1) + c.poisoningDamage;
      assert next.health == s.health - c.poisoningDamage;
      PoisonDrains(c, next, k - 1);
    }
  }

  /** Scenario: three poisoned seconds on the defaults cost exactly 6 health. */
  lemma ThreePoisonedSeconds()
    ensures Ticks(Defaults, SetPoisoned(New(Defaults), true), 3).health == 94
  {
    PoisonDrains(Defaults, SetPoisoned(New(Defaults), true), 3);
  }

  /**
   * Rest: a resting live character gains `healthRestoreRest` health a second
   * (capped), poison does no harm, and breath refills by 3000, plus the
   * surface refill of 2000 when out of the water; breath stays within bounds.
   */
  lemma RestTickHeals(c: Config, s: State)
    requires Valid(c, s) && !s.dead && s.resting
    ensures Tick(c, s).health == Min(c.maxHealth, s.health + c.healthRestoreRest)
    ensures Tick(c, s).apnea ==
              Min(c.maxApnea, s.apnea + (if s.underwater then ApneaRestRegen else ApneaSurfaceRegen + ApneaRestRegen))
    ensures Tick(c, s).(health := s.health, apnea := s.apnea) == s
  {
  }

  /** Scenario: an antidote at 40 health cures poison and brings health to 90. */
  lemma AntidoteFromForty()
    ensures var s := SetPoisoned(New(Defaults), true).(health := 40);
            UseAntidote(Defaults, s) == Dose(s.(poisoned := false, health := 90), true)
  {
  }
}

=== FILE: interval_leak.dfy ===
/**
 * The health system's timers as live sets of intervals. `startHealthMonitoring`
 * registers one set (apnea, poison, rest); `die()` clears the set whose handles
 * are stored, which is the most recently registered one; `reset()` registers a
 * new set without clearing anything first.
 *
 * Within one second the live sets fire oldest first, each running the three
 * interval bodies. A death during the second clears the newest set, so the
 * sets after it no longer fire.
 */
module IntervalLeak {
  import opened Health

  /** A health state together with the number of live interval sets. */
  datatype Clocked = Clocked(s: State, sets: nat)

  /** The constructor registers exactly one set. */
  function Boot(c: Config): (k: Clocked)
    ensures k.sets == 1 && Pristine(c, k.s)
  {
    Clocked(New(c), 1)
  }

  /** After an operation: if it killed the character, `die()` cleared the newest set. */
  function After(k: Clocked, r: State): (k': Clocked)
    ensures k'.s == r
    ensures !k.s.dead && r.dead && k.sets > 0 ==> k'.sets == k.sets - 1
    ensures !(!k.s.dead && r.dead) ==> k'.sets == k.sets
  {
    Clocked(r, if !k.s.dead && r.dead && k.sets > 0 then k.sets - 1 else k.sets)
  }

  /** The live sets numbered `i` and above fire, oldest first. */
  function Fire(c: Config, k: Clocked, i: nat): (k': Clocked)
    ensures k'.sets <= k.sets
    decreases k.sets - i
  {
    if i < k.sets then
      var next := After(k, TickBodies(c, k.s));
      Fire(c, next, i + 1)
    else k
  }

  /** One second of simulated time. */
  function OneSecond(c: Config, k: Clocked): Clocked
  {
    Fire(c, k, 0)
  }

  /** `reset()` as written: a new life, plus one more live interval set. */
  function ResetAsWritten(c: Config, k: Clocked): (k': Clocked)
    ensures Pristine(c, k'.s) && k'.sets == k.sets + 1
  {
    Clocked(New(c), k.sets + 1)
  }

  /** `reset()` as intended: clear whatever intervals are live, then start one set. */
  function ResetCorrected(c: Config, k: Clocked): (k': Clocked)
    ensures Pristine(c, k'.s) && k'.sets == 1
  {
    Clocked(New(c), 1)
  }

  function StepAsWritten(c: Config, k: Clocked, cmd: Cmd): Clocked
  {
    match cmd
    case Restart => ResetAsWritten(c, k)
    case Second => OneSecond(c, k)
    case _ => After(k, Step(c, k.s, cmd))
  }

  function RunAsWritten(c: Config, k: Clocked, cmds: seq<Cmd>): Clocked
    decreases |cmds|
  {
    if |cmds| == 0 then k else RunAsWritten(c, StepAsWritten(c, k, cmds[0]), cmds[1..])
  }

  /** Exactly one set of intervals runs while alive, none once dead. */
  predicate OneClock(k: Clocked)
  {
    k.sets == if k.s.dead then 0 else 1
  }

  /**
   * With the corrected reset, every call keeps exactly one clock running
   * while alive, and the state evolves exactly as in `Health.Step`, whose
   * `Tick` is a no-op once dead.
   */
  function StepCorrected(c: Config, k: Clocked, cmd: Cmd): (k': Clocked)
    requires Valid(c, k.s) && OneClock(k)
    ensures Valid(c, k'.s) && OneClock(k')
    ensures k'.s == Health.Step(c, k.s, cmd)
  {
    match cmd
    case Restart => ResetCorrected(c, k)
    case Second =>
      if k.s.dead then
        k
      else
        var next := After(k, TickBodies(c, k.s));
        assert next.sets == (if next.s.dead then 0 else 1);
        next
    case _ => After(k, Step(c, k.s, cmd))
  }

  /** Over any sequence of calls, the corrected clock tracks `Health.Run` exactly. */
  function RunCorrected(c: Config, k: Clocked, cmds: seq<Cmd>): (k': Clocked)
    requires Valid(c, k.s) && OneClock(k)
    ensures Valid(c, k'.s) && OneClock(k')
    ensures k'.s == Health.Run(c, k.s, cmds)
    decreases |cmds|
  {
    if |cmds| == 0 then k else RunCorrected(c, StepCorrected(c, k, cmds[0]), cmds[1..])
  }

  /**
   * As written, a reset while alive doubles the clock: from then on one
   * second of poison costs 4 health instead of 2.
   */
  lemma ResetWhileAliveDoublesPoison()
    ensures var k := RunAsWritten(Defaults, Boot(Defaults), [Restart, Poison(true), Second]);
            k.s.health == 96 && k.sets == 2
  {
    var k1 := StepAsWritten(Defaults, Boot(Defaults), Restart);
    var k2 := StepAsWritten(Defaults, k1, Poison(true));
    assert k2 == Clocked(New(Defaults).(poisoned := true), 2);
    var k3 := StepAsWritten(Defaults, k2, Second);
    assert Fire(Defaults, k2, 1).s.health == 98;
    assert k3.s.health == 96;
    assert RunAsWritten(Defaults, Boot(Defaults), [Restart, Poison(true), Second])
        == RunAsWritten(Defaults, k3, []);
  }

  /**
   * As written, after a reset while alive a later death leaves the older set
   * running, and its apnea interval refills the breath of a dead character.
   */
  lemma LeakedIntervalRefillsDeadBreath()
    ensures var k := RunAsWritten(Defaults, Boot(Defaults), [Restart, Submerge(true), Second, Kill]);
            && k.s.dead && k.s.apnea == 418000 && k.sets == 1
            && OneSecond(Defaults, k).s.apnea == 420000
  {
    var c := Defaults;
    var k1 := StepAsWritten(c, Boot(c), Restart);
    var k2 := StepAsWritten(c, k1, Submerge(true));
    assert k2 == Clocked(New(c).(underwater := true), 2);
    var k3 := StepAsWritten(c, k2, Second);
    assert Fire(c, k2, 1).s == New(c).(underwater := true, apnea := 419000);
    assert k3.s == New(c).(underwater := true, apnea := 418000) && k3.sets == 2;
    var k4 := StepAsWritten(c, k3, Kill);
    assert k4.s == New(c).(apnea := 418000, dead := true) && k4.sets == 1;
    assert RunAsWritten(c, Boot(c), [Restart, Submerge(true), Second, Kill]) == RunAsWritten(c, k4, []);
    assert Fire(c, k4, 0) == Fire(c, Clocked(New(c).(dead := true), 1), 1);
  }
}

=== FILE: level_ids.dfy ===
/**
 * Level identifiers of the form `niveau<N>-<step>` and the two regular
 * expressions that take them apart: `/niveau(\d+)/` for the level number and
 * `/niveau\d+-(.+)/` for the step name. Both are modelled as leftmost matches
 * with greedy repetition; `.` matches anything but a line terminator. A
 * greedy `\d+` never needs to give digits back here, since a digit is never
 * the `-` that follows it.
 */
module LevelIds {
  import opened Util

  const Prefix: string := "niveau"

  predicate IsDigit(ch: char)
  {
    '0' <= ch <= '9'
  }

  predicate AllDigits(s: string)
  {
    forall i :: 0 <= i < |s| ==> IsDigit(s[i])
  }

  /** The characters a JavaScript `.` does not match. */
  predicate IsLineTerminator(ch: char)
  {
    ch == '\n' || ch == '\r' || ch == '\U{2028}' || ch == '\U{2029}'
  }

  predicate NoLineTerminator(s: string)
  {
    forall i :: 0 <= i < |s| ==> !IsLineTerminator(s[i])
  }

  /** `t` occurs in `s` starting at index `i`. */
  predicate HasAt(s: string, i: int, t: string)
  {
    0 <= i && i + |t| <= |s| && s[i..i + |t|] == t
  }

  /** `s.includes(t)`. */
  predicate Contains(s: string, t: string)
  {
    exists i :: 0 <= i <= |s| && HasAt(s, i, t)
  }

  /** The longest run of ASCII digits starting at `j`. */
  function DigitRun(s: string, j: nat): (d: string)
    requires j <= |s|
    ensures j + |d| <= |s| && s[j..j + |d|] == d && AllDigits(d)
    ensures j + |d| == |s| || !IsDigit(s[j + |d|])
    decreases |s| - j
  {
    if j < |s| && IsDigit(s[j]) then [s[j]] + DigitRun(s, j + 1) else ""
  }

  /** The longest run of characters other than line terminators starting at `j`. */
  function LineRun(s: string, j: nat): (t: string)
    requires j <= |s|
    ensures j + |t| <= |s| && s[j..j + |t|] == t && NoLineTerminator(t)
    ensures j + |t| == |s| || IsLineTerminator(s[j + |t|])
    ensures j < |s| && !IsLineTerminator(s[j]) ==> |t| > 0
    decreases |s| - j
  {
    if j < |s| && !IsLineTerminator(s[j]) then [s[j]] + LineRun(s, j + 1) else ""
  }

  /** `parseInt` of a string of decimal digits. */
  function DigitsValue(d: string): nat
    requires AllDigits(d)
    decreases |d|
  {
    if |d| == 0 then 0
    else DigitsValue(d[..|d| - 1]) * 10 + (d[|d| - 1] as int - '0' as int)
  }

  function DigitChar(n: nat): (ch: char)
    requires n < 10
    ensures IsDigit(ch) && ch as int - '0' as int == n
  {
    ('0' as int + n) as char
  }

  /** The decimal rendering of a template literal: no leading zero, parsed back to `n`. */
  function NatToString(n: nat): (s: string)
    ensures |s| > 0 && AllDigits(s)
    ensures DigitsValue(s) == n
    ensures s[0] == '0' ==> n == 0
    decreases n
  {
    if n < 10 then [DigitChar(n)]
    else
      var front := NatToString(n / 10);
      var s := front + [DigitChar(n % 10)];
      assert s[..|s| - 1] == front;
      s
  }

  /** The identifier `niveau<n>-<step>`. */
  function LevelId(n: nat, step: string): string
  {
    Prefix + NatToString(n) + "-" + step
  }

  /** `/niveau(\d+)/` matches at `i`. */
  predicate NumberAt(s: string, i: nat)
  {
    HasAt(s, i, Prefix) && i + |Prefix| < |s| && IsDigit(s[i + |Prefix|])
  }

  /** Where a match of `/niveau\d+-(.+)/` at `i` would put its `-`. */
  function DashIndex(s: string, i: nat): nat
    requires NumberAt(s, i)
  {
    i + |Prefix| + |DigitRun(s, i + |Prefix|)|
  }

  /**
   * `/niveau\d+-(.+)/` matches at `i`: the greedy digit run is followed by a
   * dash and at least one character that is not a line terminator.
   */
  predicate StepAt(s: string, i: nat)
  {
    && NumberAt(s, i)
    && DashIndex(s, i) + 1 < |s|
    && s[DashIndex(s, i)] == '-'
    && !IsLineTerminator(s[DashIndex(s, i) + 1])
  }

  /** The leftmost index in `from..len` where `matches` holds. */
  function Leftmost(matches: nat -> bool, len: nat, from: nat): (r: Option<nat>)
    ensures r.Some? ==> from <= r.value < len && matches(r.value)
    ensures r.Some? ==> forall j :: from <= j < r.value ==> !matches(j)
    ensures r.None? ==> forall j :: from <= j < len ==> !matches(j)
    decreases len - from
  {
    if from >= len then None
    else if matches(from) then Some(from)
    else Leftmost(matches, len, from + 1)
  }

  /** `i` is where `/niveau(\d+)/` matches first in `id`. */
  predicate FirstNumberAt(id: string, i: nat)
  {
    NumberAt(id, i) && forall j :: 0 <= j < i ==> !NumberAt(id, j)
  }

  /** `i` is where `/niveau\d+-(.+)/` matches first in `id`. */
  predicate FirstStepAt(id: string, i: nat)
  {
    StepAt(id, i) && forall j :: 0 <= j < i ==> !StepAt(id, j)
  }

  /** `extractLevelNumber(id)`: the digits of the leftmost `niveau<digits>`, parsed. */
  function ExtractLevelNumber(id: string): (r: Option<nat>)
    ensures r.Some? <==> exists i :: 0 <= i < |id| && NumberAt(id, i)
    ensures r.Some? ==> exists i :: 0 <= i < |id| && FirstNumberAt(id, i)
                                     && r.value == DigitsValue(DigitRun(id, i + |Prefix|))
  {
    var matches := (j: nat) => NumberAt(id, j);
    match Leftmost(matches, |id|, 0)
    case None =>
      assert forall i: nat :: i < |id| ==> !NumberAt(id, i) by {
        forall i: nat | i < |id| ensures !NumberAt(id, i) { assert !matches(i); }
      }
      None
    case Some(i) =>
      assert FirstNumberAt(id, i) by {
        assert matches(i);
        forall j | 0 <= j < i ensures !NumberAt(id, j) { assert !matches(j); }
      }
      Some(DigitsValue(DigitRun(id, i + |Prefix|)))
  }

  /**
   * `extractStepName(id)`: what follows the dash of the leftmost
   * `niveau<digits>-`, up to the end of the line; never empty.
   */
  function ExtractStepName(id: string): (r: Option<string>)
    ensures r.Some? <==> exists i :: 0 <= i < |id| && StepAt(id, i)
    ensures r.Some? ==> |r.value| > 0 && NoLineTerminator(r.value)
    ensures r.Some? ==> exists i :: 0 <= i < |id| && FirstStepAt(id, i)
                                     && r.value == LineRun(id, DashIndex(id, i) + 1)
  {
    var matches := (j: nat) => StepAt(id, j);
    match Leftmost(matches, |id|, 0)
    case None =>
      assert forall i: nat :: i < |id| ==> !StepAt(id, i) by {
        forall i: nat | i < |id| ensures !StepAt(id, i) { assert !matches(i); }
      }
      None
    case Some(i) =>
      assert FirstStepAt(id, i) by {
        assert matches(i);
        forall j | 0 <= j < i ensures !StepAt(id, j) { assert !matches(j); }
      }
      FirstStepGivesName(id, i);
      Some(LineRun(id, DashIndex(id, i) + 1))
  }

  /** The first step match yields a non-empty, one-line name, and is a match. */
  lemma FirstStepGivesName(id: string, i: nat)
    requires i < |id| && FirstStepAt(id, i)
    ensures var step := LineRun(id, DashIndex(id, i) + 1);
            && |step| > 0 && NoLineTerminator(step)
            && (exists k :: 0 <= k < |id| && StepAt(id, k))
            && (exists k :: 0 <= k < |id| && FirstStepAt(id, k) && step == LineRun(id, DashIndex(id, k) + 1))
  {
    assert StepAt(id, i);
  }

  /** A digit run is determined by the digits that are there and the non-digit after them. */
  lemma {:induction false} DigitRunIs(s: string, j: nat, d: string)
    requires j + |d| <= |s| && s[j..j + |d|] == d && AllDigits(d)
    requires j + |d| == |s| || !IsDigit(s[j + |d|])
    ensures DigitRun(s, j) == d
    decreases |d|
  {
    if |d| > 0 {
      assert s[j] == d[0];
      assert s[j + 1..j + 1 + |d[1..]|] == d[1..];
      DigitRunIs(s, j + 1, d[1..]);
      assert d == [d[0]] + d[1..];
    } else if j < |s| {
      assert !IsDigit(s[j]);
    }
  }

  /** Likewise for a run up to the end of the line. */
  lemma {:induction false} LineRunIs(s: string, j: nat, t: string)
    requires j + |t| <= |s| && s[j..j + |t|] == t && NoLineTerminator(t)
    requires j + |t| == |s| || IsLineTerminator(s[j + |t|])
    ensures LineRun(s, j) == t
    decreases |t|
  {
    if |t| > 0 {
      assert s[j] == t[0];
      assert s[j + 1..j + 1 + |t[1..]|] == t[1..];
      LineRunIs(s, j + 1, t[1..]);
      assert t == [t[0]] + t[1..];
    } else if j < |s| {
      assert IsLineTerminator(s[j]);
    }
  }

  /** The identifier of level `n` matches both patterns at index 0, with its dash right after the digits. */
  lemma LevelIdMatchesAtStart(n: nat, step: string)
    requires |step| > 0 && NoLineTerminator(step)
    ensures NumberAt(LevelId(n, step), 0)
    ensures DigitRun(LevelId(n, step), |Prefix|) == NatToString(n)
    ensures DashIndex(LevelId(n, step), 0) == |Prefix| + |NatToString(n)|
    ensures StepAt(LevelId(n, step), 0)
  {
    var digits := NatToString(n);
    var id := LevelId(n, step);
    var k := |Prefix| + |digits|;
    assert id[..|Prefix|] == Prefix;
    assert id[|Prefix|..k] == digits;
    assert id[k] == '-';
    assert id[|Prefix|] == digits[0];
    assert HasAt(id, 0, Prefix);
    DigitRunIs(id, |Prefix|, digits);
    assert id[k + 1] == step[0];
  }

  /**
   * Rendering then parsing round-trips: the identifier of level `n` of a
   * step parses back to `n` and to the step, for any step name that is
   * non-empty and on one line.
   */
  lemma ParseLevelId(n: nat, step: string)
    requires |step| > 0 && NoLineTerminator(step)
    ensures ExtractLevelNumber(LevelId(n, step)) == Some(n)
    ensures ExtractStepName(LevelId(n, step)) == Some(step)
  {
    var id := LevelId(n, step);
    var k := |Prefix| + |NatToString(n)|;
    LevelIdMatchesAtStart(n, step);
    assert Leftmost((j: nat) => NumberAt(id, j), |id|, 0) == Some(0);
    assert Leftmost((j: nat) => StepAt(id, j), |id|, 0) == Some(0);
    assert id[k + 1..k + 1 + |step|] == step;
    LineRunIs(id, k + 1, step);
  }

  /** In `niveau007-mare` both patterns match at index 0, with the three digits `007`. */
  lemma ZeroPaddedMatchAtZero()
    ensures var id := "niveau007-mare";
            && FirstNumberAt(id, 0) && FirstStepAt(id, 0)
            && DigitRun(id, 6) == "007" && DashIndex(id, 0) == 9
  {
    var id := "niveau007-mare";
    assert HasAt(id, 0, Prefix) by { assert id[..6] == Prefix; }
    assert id[6..9] == "007";
    DigitRunIs(id, 6, "007");
  }

  /** Leading zeros are parsed away; the step is the rest of the line. */
  lemma ParseZeroPadded()
    ensures ExtractLevelNumber("niveau007-mare") == Some(7)
    ensures ExtractStepName("niveau007-mare") == Some("mare")
  {
    var id := "niveau007-mare";
    ZeroPaddedMatchAtZero();
    assert "007"[..2] == "00" && "00"[..1] == "0" && "0"[..0] == "";
    assert DigitsValue("007") == 7;
    assert id[10..14] == "mare";
    LineRunIs(id, 10, "mare");
  }

  /** In `xniveau3-a-niveau4-b` the only complete match starts at index 1. */
  lemma LeftmostMatchAtOne()
    ensures var id := "xniveau3-a-niveau4-b";
            && FirstNumberAt(id, 1) && FirstStepAt(id, 1)
            && DigitRun(id, 7) == "3" && DashIndex(id, 1) == 8
  {
    var id := "xniveau3-a-niveau4-b";
    assert !NumberAt(id, 0) by { assert id[0] != Prefix[0]; }
    assert HasAt(id, 1, Prefix) by { assert id[1..7] == Prefix; }
    assert id[7..8] == "3";
    DigitRunIs(id, 7, "3");
  }

  /**
   * Only the leftmost match counts: in `xniveau3-a-niveau4-b` the level is 3
   * and the step is everything after the first dash, the second level name included.
   */
  lemma ParseLeftmostMatch()
    ensures ExtractLevelNumber("xniveau3-a-niveau4-b") == Some(3)
    ensures ExtractStepName("xniveau3-a-niveau4-b") == Some("a-niveau4-b")
  {
    var id := "xniveau3-a-niveau4-b";
    LeftmostMatchAtOne();
    assert "3"[..0] == "";
    assert DigitsValue("3") == 3;
    assert id[9..20] == "a-niveau4-b";
    LineRunIs(id, 9, "a-niveau4-b");
  }
}

=== FILE: progression.dfy ===
/**
 * `GameProgression`: the cross-level ledger of completed levels, the total of
 * nuggets collected, and the unlock rule between levels. The persisted object
 * is an in-memory value; loading and saving are not modelled.
 */
module Progression {
  import opened Util
  import opened LevelIds

  /** The final objective: 30 nuggets across all levels. */
  const TotalNuggetsRequired: int := 30

  /** The fixed order of the game's steps. */
  const Steps: seq<string> :=
    ["ruisseau", "mare", "riviere", "riviere2", "ocean", "marecageuse", "ocean2", "antarctique", "bermudes"]

  /** The last level number of every step. */
  const LastLevel: nat := 6

  datatype Ledger = Ledger(
    totalCollected: int,
    levelsCompleted: map<string, bool>,
    currentLevel: Option<string>)

  /** The default progression, and what `reset()` produces. */
  function Initial(): (l: Ledger)
    ensures l.totalCollected == 0 && l.levelsCompleted == map[] && l.currentLevel.None?
  {
    Ledger(0, map[], None)
  }

  /** `isLevelCompleted(id)`: the entry is exactly `true`; a missing entry reads as not completed. */
  function IsLevelCompleted(l: Ledger, id: string): (r: bool)
    ensures id !in l.levelsCompleted ==> !r
    ensures id in l.levelsCompleted ==> r == l.levelsCompleted[id]
  {
    id in l.levelsCompleted && l.levelsCompleted[id]
  }

  /**
   * `completeLevel(id, nuggets)`: the first completion of a level marks it
   * and adds its nuggets to the total; any later one changes nothing.
   */
  function CompleteLevel(l: Ledger, id: string, nuggets: int): (r: Ledger)
    ensures IsLevelCompleted(r, id)
    ensures IsLevelCompleted(l, id) ==> r == l
    ensures !IsLevelCompleted(l, id) ==>
              && r.totalCollected == l.totalCollected + nuggets
              && r.levelsCompleted == l.levelsCompleted[id := true]
              && r.currentLevel == l.currentLevel
  {
    if !IsLevelCompleted(l, id) then
      l.(levelsCompleted := l.levelsCompleted[id := true], totalCollected := l.totalCollected + nuggets)
    else l
  }

  /** `setCurrentLevel(id)`. */
  function SetCurrentLevel(l: Ledger, id: string): (r: Ledger)
    ensures r.currentLevel == Some(id)
    ensures r.(currentLevel := l.currentLevel) == l
  {
    l.(currentLevel := Some(id))
  }

  /** `reset()`: all progress is lost. */
  function Reset(l: Ledger): (r: Ledger)
    ensures r == Initial()
    ensures forall id :: !IsLevelCompleted(r, id)
  {
    Initial()
  }

  /** `isFinalObjectiveReached()`: at least 30 nuggets collected over all completed levels. */
  function IsFinalObjectiveReached(l: Ledger): (r: bool)
    ensures r <==> l.totalCollected >= TotalNuggetsRequired
  {
    l.totalCollected >= TotalNuggetsRequired
  }

  /** `steps.indexOf(x)`: the first index holding `x`. */
  function IndexOf(xs: seq<string>, x: string): (r: Option<nat>)
    ensures r.Some? ==> r.value < |xs| && xs[r.value] == x
    ensures r.Some? ==> forall j :: 0 <= j < r.value ==> xs[j] != x
    ensures r.None? ==> forall j :: 0 <= j < |xs| ==> xs[j] != x
    decreases |xs|
  {
    if |xs| == 0 then None
    else if xs[0] == x then Some(0)
    else match IndexOf(xs[1..], x)
      case None => None
      case Some(i) => Some(i + 1)
  }

  /** `getPreviousStep(step)`: the step before it, or none for the first or an unknown step. */
  function PreviousStep(step: string): (r: Option<string>)
    ensures r.Some? <==> exists i :: 1 <= i < |Steps| && Steps[i] == step
    ensures forall i :: 1 <= i < |Steps| && Steps[i] == step ==> r == Some(Steps[i - 1])
  {
    StepsDistinct();
    match IndexOf(Steps, step)
    case None => None
    case Some(i) => if i > 0 then Some(Steps[i - 1]) else None
  }

  lemma StepsDistinct()
    ensures forall i, j :: 0 <= i < j < |Steps| ==> Steps[i] != Steps[j]
  {
  }

  /**
   * `isLevelUnlocked(id)`: an identifier containing `niveau1` anywhere is
   * always open; otherwise level N > 1 opens once level N - 1 of the same
   * step is complete, and a lower number opens once the last level of the
   * previous step is complete.
   */
  function IsLevelUnlocked(l: Ledger, id: string): (r: bool)
    ensures Contains(id, "niveau1") ==> r
    ensures !Contains(id, "niveau1") && (ExtractLevelNumber(id).None? || ExtractStepName(id).None?) ==> !r
    ensures r ==> Contains(id, "niveau1") || exists done :: IsLevelCompleted(l, done)
  {
    if Contains(id, "niveau1") then true
    else match ExtractLevelNumber(id)
      case None => false
      case Some(n) =>
        match ExtractStepName(id)
        case None => false
        case Some(step) =>
          if |step| == 0 then false
          else if n > 1 then IsLevelCompleted(l, LevelId(n - 1, step))
          else match PreviousStep(step)
            case Some(previous) => IsLevelCompleted(l, LevelId(LastLevel, previous))
            case None => false
  }
}

=== FILE: progression_facts.dfy ===
/**
 * Properties of the progression ledger: idempotent completion, a total that
 * only grows between resets, and the unlock rule on well-formed identifiers.
 */
module ProgressionFacts {
  import opened Util
  import opened LevelIds
  import opened Progression

  /** Completing the same level twice is completing it once, whatever the second count. */
  lemma CompleteLevelIdempotent(l: Ledger, id: string, first: int, second: int)
    ensures CompleteLevel(CompleteLevel(l, id, first), id, second) == CompleteLevel(l, id, first)
  {
  }

  /** What a page can do to the ledger. */
  datatype LedgerCmd = Complete(id: string, nuggets: nat) | Current(id: string) | Wipe

  function Apply(l: Ledger, cmd: LedgerCmd): Ledger
  {
    match cmd
    case Complete(id, n) => CompleteLevel(l, id, n)
    case Current(id) => SetCurrentLevel(l, id)
    case Wipe => Reset(l)
  }

  predicate NoWipe(cmds: seq<LedgerCmd>)
  {
    forall i :: 0 <= i < |cmds| ==> !cmds[i].Wipe?
  }

  /**
   * With non-negative nugget counts and no reset, the total never drops, a
   * completed level stays completed and a reached objective stays reached.
   */
  function Replay(l: Ledger, cmds: seq<LedgerCmd>): (r: Ledger)
    ensures NoWipe(cmds) ==> r.totalCollected >= l.totalCollected
    ensures NoWipe(cmds) ==> forall id :: IsLevelCompleted(l, id) ==> IsLevelCompleted(r, id)
    ensures NoWipe(cmds) && IsFinalObjectiveReached(l) ==> IsFinalObjectiveReached(r)
    decreases |cmds|
  {
    if |cmds| == 0 then l
    else
      assert NoWipe(cmds) ==> NoWipe(cmds[1..]) by {
        forall i | 0 <= i < |cmds[1..]| ensures cmds[1..][i] == cmds[i + 1] { }
      }
      Replay(Apply(l, cmds[0]), cmds[1..])
  }

  /** Any identifier containing `niveau1` is open, even `niveau10-mare` on an empty ledger. */
  lemma NiveauTenIsOpen()
    ensures IsLevelUnlocked(Initial(), "niveau10-mare")
  {
    assert HasAt("niveau10-mare", 0, "niveau1");
  }

  /**
   * Every level whose number is written with a leading 1 (1, 10 to 19, ...)
   * is open, so the previous-step rule never decides a level 1.
   */
  lemma LeadingOneIsOpen(l: Ledger, n: nat, step: string)
    requires NatToString(n)[0] == '1'
    ensures IsLevelUnlocked(l, LevelId(n, step))
  {
    var id := LevelId(n, step);
    assert id[..7] == "niveau1";
    assert HasAt(id, 0, "niveau1");
  }

  /**
   * For a well-formed identifier of level N > 1 without `niveau1` in it, the
   * level is open exactly when level N - 1 of the same step is complete.
   */
  lemma UnlockFollowsPreviousLevel(l: Ledger, n: nat, step: string)
    requires n > 1 && |step| > 0 && NoLineTerminator(step)
    requires !Contains(LevelId(n, step), "niveau1")
    ensures IsLevelUnlocked(l, LevelId(n, step)) <==> IsLevelCompleted(l, LevelId(n - 1, step))
  {
    var id := LevelId(n, step);
    ParseLevelId(n, step);
    assert ExtractLevelNumber(id) == Some(n);
    assert ExtractStepName(id) == Some(step);
  }

  /** Completing level N - 1 of a step opens level N of it. */
  lemma CompletingOpensNext(l: Ledger, n: nat, step: string, nuggets: int)
    requires n > 1 && |step| > 0 && NoLineTerminator(step)
    requires !Contains(LevelId(n, step), "niveau1")
    ensures IsLevelUnlocked(CompleteLevel(l, LevelId(n - 1, step), nuggets), LevelId(n, step))
  {
    UnlockFollowsPreviousLevel(CompleteLevel(l, LevelId(n - 1, step), nuggets), n, step);
  }

  /**
   * For a level numbered 0 of step i (the only number at most 1 whose
   * identifier lacks `niveau1`), the level is open exactly when level 6 of
   * step i - 1 is complete; for the first step it never is.
   */
  lemma UnlockFollowsPreviousStep(l: Ledger, i: nat)
    requires i < |Steps|
    requires !Contains(LevelId(0, Steps[i]), "niveau1")
    ensures i > 0 ==>
              (IsLevelUnlocked(l, LevelId(0, Steps[i])) <==> IsLevelCompleted(l, LevelId(LastLevel, Steps[i - 1])))
    ensures i == 0 ==> !IsLevelUnlocked(l, LevelId(0, Steps[i]))
  {
    var step := Steps[i];
    StepsWellFormed(i);
    ParseLevelId(0, step);
    var id := LevelId(0, step);
    assert ExtractLevelNumber(id) == Some(0) && ExtractStepName(id) == Some(step);
    if i > 0 {
      assert PreviousStep(step) == Some(Steps[i - 1]);
    } else {
      StepsDistinct();
      assert PreviousStep(step).None?;
    }
  }

  /** Every step name is non-empty and on one line. */
  lemma StepsWellFormed(i: nat)
    requires i < |Steps|
    ensures |Steps[i]| > 0 && NoLineTerminator(Steps[i])
  {
  }

  /** An identifier with no `niveau<digit>` in it is never open. */
  lemma UnparsedIsLocked(l: Ledger, id: string)
    requires !Contains(id, "niveau1") && ExtractLevelNumber(id).None?
    ensures !IsLevelUnlocked(l, id)
  {
  }

  /** The step order: each step's predecessor is the one listed before it. */
  lemma StepOrder()
    ensures PreviousStep("ruisseau").None? && PreviousStep("lac").None?
    ensures PreviousStep("mare") == Some("ruisseau")
    ensures PreviousStep("bermudes") == Some("antarctique")
  {
    assert Steps[1] == "mare" && Steps[8] == "bermudes";
  }

  /** Completing the same level five times with 6 nuggets counts 6 once: the goal is not reached. */
  lemma RepeatedLevelCountsOnce()
    ensures var c := Complete("niveau1-ruisseau", 6);
            var l := Replay(Initial(), [c, c, c, c, c]);
            l.totalCollected == 6 && !IsFinalObjectiveReached(l)
  {
    var c := Complete("niveau1-ruisseau", 6);
    var l1 := Apply(Initial(), c);
    assert IsLevelCompleted(l1, "niveau1-ruisseau") && l1.totalCollected == 6;
    assert Replay(Initial(), [c, c, c, c, c]) == Replay(l1, [c, c, c, c]);
    assert Replay(l1, [c, c, c, c]) == Replay(l1, [c, c, c]);
    assert Replay(l1, [c, c, c]) == Replay(l1, [c, c]);
    assert Replay(l1, [c, c]) == Replay(l1, [c]);
    assert Replay(l1, [c]) == Replay(l1, []);
  }

  /** One completion command per identifier, each worth the same number of nuggets. */
  function CompleteAll(ids: seq<string>, nuggets: nat): (cmds: seq<LedgerCmd>)
    ensures |cmds| == |ids| && NoWipe(cmds)
    ensures forall i :: 0 <= i < |ids| ==> cmds[i] == Complete(ids[i], nuggets)
  {
    seq(|ids|, i requires 0 <= i < |ids| => Complete(ids[i], nuggets))
  }

  /**
   * Completing levels that are pairwise distinct and not yet complete adds
   * the nuggets of every one of them to the total.
   */
  lemma {:induction false} NewLevelsAddUp(l: Ledger, ids: seq<string>, nuggets: nat)
    requires forall i, j :: 0 <= i < j < |ids| ==> ids[i] != ids[j]
    requires forall i :: 0 <= i < |ids| ==> !IsLevelCompleted(l, ids[i])
    ensures Replay(l, CompleteAll(ids, nuggets)).totalCollected == l.totalCollected + nuggets * |ids|
    decreases |ids|
  {
    if |ids| > 0 {
      var cmds := CompleteAll(ids, nuggets);
      var next := Apply(l, cmds[0]);
      assert next.totalCollected == l.totalCollected + nuggets;
      assert cmds[1..] == CompleteAll(ids[1..], nuggets);
      forall i | 0 <= i < |ids[1..]|
        ensures !IsLevelCompleted(next, ids[1..][i])
      {
        assert ids[1..][i] == ids[i + 1] && ids[i + 1] != ids[0];
      }
      NewLevelsAddUp(next, ids[1..], nuggets);
    }
  }

  /** Five different levels of 6 nuggets each, from a fresh ledger, reach the 30-nugget goal. */
  lemma FiveNewLevelsReachGoal(ids: seq<string>)
    requires |ids| == 5
    requires forall i, j :: 0 <= i < j < |ids| ==> ids[i] != ids[j]
    ensures IsFinalObjectiveReached(Replay(Initial(), CompleteAll(ids, 6)))
  {
    NewLevelsAddUp(Initial(), ids, 6);
  }
}

=== FILE: util.dfy ===
/** Small shared helpers: an optional value (JavaScript's `null`) and integer clamps. */
module Util {

  /** A value that may be absent, standing for a JavaScript `null` result. */
  datatype Option<+T> = None | Some(value: T)

  function Min(a: int, b: int): int
  {
    if a <= b then a else b
  }

  function Max(a: int, b: int): int
  {
    if a >= b then a else b
  }
}
